=== FILE: README.md ===
# acts-as-taggable-on: the `Tag` model in Dafny

This project models the core of `ActsAsTaggableOn::Tag`
(`lib/acts_as_taggable_on/tag.rb`), the record that holds one canonical tag
name. It covers:

- **`normalise`**: raw tag text becomes a canonical name. The steps are
  downcase, transliterate, strip, delete every character outside
  `[-+a-z0-9 ]`, and squeeze runs of spaces. If the result is blank, the
  raw input is used instead; the result is then stripped.
- **The tags table**: an immutable sequence of rows.
  - `create` checks the presence and uniqueness validations. It saves the
    record under the next id, or returns it unsaved.
  - Also modelled: the `name=` setter, `to_s`, `==` and `safe_name`.
- **The scopes**: `named`, `named_any`, `named_like` and `named_like_any`.
  They match with SQL `LIKE`, which is modelled as a recursive matcher with
  `%`, `_` and ASCII-case-insensitive letters.
- **The class methods**: `find_or_create_with_like_by_name` and
  `find_or_create_all_with_like_by_name`.

Modules, in dependency order:

| file | module | contents |
|---|---|---|
| `optional.dfy` | `Optional` | `Option`, used for Ruby's `nil` and for unsaved ids |
| `seqs.dfy` | `Seqs` | order-preserving `Filter`, `FirstIndex`, and their lemmas |
| `text.dfy` | `Text` | Ruby 1.9 `downcase`, `strip`, space squeezing, `blank?` |
| `normaliser.dfy` | `Normaliser` | `normalise` and its properties |
| `like.dfy` | `Like` | SQL `LIKE` and its meaning for wildcard-free patterns |
| `tags.dfy` | `Tags` | the `Tag` record, the table, validations, `create`, `==`, `to_s`, `name=`, `safe_name` |
| `resolver.dfy` | `Resolver` | the four scopes and the two find-or-create methods |
| `fixtures.dfy` | `Fixtures` | the model on the inputs of the repository's own examples |

Modelling choices:

- **Transliteration**: `ActiveSupport::Inflector.transliterate` is a table
  that belongs to ActiveSupport, so it is a parameter
  `tr: char -> string`.
  - Idempotence and case-insensitivity assume only `AsciiFixed(tr)`: an
    ASCII character transliterates to itself.
  - A character with no ASCII approximation may map to `?`, as ActiveSupport
    does, or to nothing. Either way it is "lost" (`Normaliser.Lost`).
- **The normaliser in the table code**: the record and table operations take
  the normaliser as a function parameter `norm`, because the source uses
  `normalise` only through its results.
  - The lemmas that need to know what `normalise` does instantiate it with
    `Normaliser.NormaliseWith(tr)`.
  - The other lemmas hold for any normaliser.

Behaviour that follows from the code and is easy to miss:

- **Lookup is a substring match.** `named_like` and
  `find_or_create_with_like_by_name` bind `%name%` (tag.rb:28), so looking
  up `cool` finds a stored `coolip`, as tag_spec.rb:111-116 expects. See
  `Resolver.NamedLikeIsSubstring`.
- **The fallback test is `present?`** (tag.rb:63). The comment there and
  the example at tag_spec.rb:167-170 speak of an "obliterated" or "empty"
  normalised variant; the code also falls back when the cleaned string is
  made only of spaces, as from `"! !"`.
- **`create` does not raise.** `Tag.create` (tag.rb:38, tag.rb:51) returns
  an unsaved record when a validation fails. So a batch that repeats a new
  name returns a second, unsaved tag; see `Resolver.RepeatedEntry`.

Two examples in tag_spec.rb expect what the code cannot give. The model
follows the code, and the module `Fixtures` states what it gives:

- **tag_spec.rb:11-20** creates "Awesome", "awesome" and "epic" and expects
  `named_like_any(["awesome", "epic"])` to find three rows. Both spellings
  normalise to "awesome", so the second `create` fails the uniqueness
  validation and two rows are found (`Fixtures.AwesomeExample`).
- **tag_spec.rb:118-136** expects `named_like('coo%')` not to find "cool"
  outside SQLite. `normalise` deletes `%`, so the bound pattern is `%coo%`,
  which "cool" matches (`Fixtures.PercentExample`). The SQLite branch of the
  same example is what the code gives everywhere.

## Model

| member | source | states |
|---|---|---|
| `Text.DowncaseChar` | lib/acts_as_taggable_on/tag.rb:96 | a capital becomes the small letter at the same place in the alphabet; every other character is left alone; ASCII stays ASCII |
| `Text.Downcase` | lib/acts_as_taggable_on/tag.rb:95-97 | downcasing keeps the length, downcases each character in place, and leaves no ASCII capital |
| `Text.Strip` | lib/acts_as_taggable_on/tag.rb:64 | `strip` leaves no strip-space at either end; it keeps every non-space character and adds none; it changes nothing when both ends are already non-space |
| `Text.StripSlice` | lib/acts_as_taggable_on/tag.rb:62-64 | the result of `strip` is a slice of the input with only strip-space before and after it |
| `Text.StripKeeps` | lib/acts_as_taggable_on/tag.rb:62-64 | `strip` drops no character other than strip-space: every filter that keeps no strip-space sees the same characters before and after |
| `Text.StripIdempotent` | lib/acts_as_taggable_on/tag.rb:64 | stripping twice is stripping once |
| `Text.Squeeze` | lib/acts_as_taggable_on/tag.rb:62 | `gsub(/ +/, " ")` leaves no two adjacent spaces, keeps the first character and the set of characters, and is the identity on text without double spaces |
| `Text.SqueezeKeeps` | lib/acts_as_taggable_on/tag.rb:62 | squeezing removes only spaces: every filter that keeps no space sees the same characters, in order, before and after |
| `Text.SqueezeBetween` | lib/acts_as_taggable_on/tag.rb:62 | two words with no space in them, separated by a run of one or more spaces, squeeze to the words separated by exactly one space |
| `Seqs.Filter` | lib/acts_as_taggable_on/tag.rb:62 | deleting the characters outside a class keeps exactly the characters of the input that are in the class |
| `Seqs.FilterIdentity` | lib/acts_as_taggable_on/tag.rb:90 | deleting the characters outside a class changes nothing exactly when every character is in the class |
| `Seqs.FilterHead` | lib/acts_as_taggable_on/tag.rb:38 | `.first` of a filtered table is the row at the first matching position, and it exists exactly when some row matches |
| `Normaliser.Normalise` | lib/acts_as_taggable_on/tag.rb:61 | `normalise(nil)` is nil and every string input gives a string |
| `Normaliser.Transliterate` | lib/acts_as_taggable_on/tag.rb:62 | every output character comes from the table entry of some input character, and every character of every entry appears; order and count are stated by `Normaliser.TransliterateOne` and `Normaliser.TransliterateConcat` |
| `Normaliser.CleanedTagChars` | lib/acts_as_taggable_on/tag.rb:62 | a tag character is in the cleaned string exactly when it is in the downcased transliteration |
| `Normaliser.CleanedAllowed` | lib/acts_as_taggable_on/tag.rb:62 | every character of the cleaned string is in `[-+a-z0-9 ]` |
| `Normaliser.CleanedBlankIff` | lib/acts_as_taggable_on/tag.rb:62-63 | the cleaned string is blank exactly when every input character is lost to downcasing, transliteration and the allow-list |
| `Normaliser.NormaliseShape` | lib/acts_as_taggable_on/tag.rb:60-64 | without the fallback the result is canonical: non-empty, over `[-+a-z0-9 ]`, single spaces, no space at either end; with the fallback it is the raw input stripped |
| `Normaliser.NormaliseKeepsTagChars` | lib/acts_as_taggable_on/tag.rb:60-64 | when some character survives, the tag characters of the result are exactly those of the downcased transliteration, in order |
| `Normaliser.WordsJoined` | lib/acts_as_taggable_on/tag.rb:60-64 | two words of tag characters separated by any run of spaces normalise to the same words separated by one space |
| `Normaliser.CleaningKeepsTagChars` | lib/acts_as_taggable_on/tag.rb:62-64 | stripping, deleting characters off the allow-list, squeezing and the final strip drop no tag character |
| `Normaliser.NormaliseIdempotent` | lib/acts_as_taggable_on/tag.rb:60-64 | normalising a normalised name changes nothing |
| `Normaliser.CaseInsensitive` | lib/acts_as_taggable_on/tag.rb:62 | inputs that differ only in the case of ASCII letters normalise to the same name |
| `Normaliser.NormalisedLowerCase` | lib/acts_as_taggable_on/tag.rb:62-64 | a normalised name has no ASCII capital, the fallback included |
| `Normaliser.TransliterateOne` | lib/acts_as_taggable_on/tag.rb:62 | a single character transliterates to exactly its table entry |
| `Normaliser.TransliterateConcat` | lib/acts_as_taggable_on/tag.rb:62 | transliterating a concatenation gives the two transliterations in order, so each character is replaced in place and order and count are kept ("español" becomes "espanol" when the table sends "ñ" to "n") |
| `Normaliser.TransliterateAscii` | lib/acts_as_taggable_on/tag.rb:62 | under a table that fixes ASCII, transliterating ASCII text changes nothing |
| `Like.LikeExact` | lib/acts_as_taggable_on/tag.rb:19-21 | with no wildcard in the pattern, `LIKE` is equality up to ASCII case, in both directions |
| `Like.LikeContains` | lib/acts_as_taggable_on/tag.rb:27-29 | with no wildcard in `p`, `LIKE '%p%'` holds exactly when `p` occurs in the value up to ASCII case |
| `Like.LikeSelf` | lib/acts_as_taggable_on/tag.rb:19-21 | every value matches itself used as a `LIKE` pattern, wildcards included |
| `Like.LikeAnything` | lib/acts_as_taggable_on/tag.rb:28 | a lone `%` matches every value |
| `Like.LikeSurrounded` | lib/acts_as_taggable_on/tag.rb:28 | every name matches the `named_like` pattern built from itself |
| `Tags.SetName` | lib/acts_as_taggable_on/tag.rb:81-83 | assigning a name stores its normalisation and leaves the id alone |
| `Tags.Create` | lib/acts_as_taggable_on/tag.rb:14-15 | the record is saved exactly when its normalised name is present and not yet stored; a saved record gets the next id and is appended; otherwise the table is unchanged |
| `Tags.CreateKeepsValid` | lib/acts_as_taggable_on/tag.rb:14-15 | the validations keep the table's ids sequential and its names present and unique |
| `Tags.Equal` | lib/acts_as_taggable_on/tag.rb:73-75 | records with the same name are `==`; a record is `==` to a saved record with its id; records with different names are `==` only in that case |
| `Tags.EqualRowsIdentical` | lib/acts_as_taggable_on/tag.rb:73-75 | in a valid table two rows are `==` exactly when they are the same row |
| `Tags.AssignedNameStable` | lib/acts_as_taggable_on/tag.rb:77-83 | `to_s` after `name=` is the normalised input, nil only for nil, and assigning it back changes nothing |
| `Tags.SafeName` | lib/acts_as_taggable_on/tag.rb:89-91 | `safe_name` is alphanumeric and keeps every alphanumeric character of the name; it equals the name exactly when the name is alphanumeric |
| `Resolver.NamedIsCaseInsensitiveEquality` | lib/acts_as_taggable_on/tag.rb:19-21 | for a name that does not fall back to the raw input, `named` selects exactly the stored rows whose name equals the normalised name up to ASCII case |
| `Resolver.NamedLikeIsSubstring` | lib/acts_as_taggable_on/tag.rb:27-29 | for a name that does not fall back to the raw input, `named_like` selects exactly the stored rows whose name contains the normalised name up to ASCII case |
| `Resolver.NamedAnyIsCaseInsensitiveMembership` | lib/acts_as_taggable_on/tag.rb:23-25 | for a non-empty list of non-nil entries none of which falls back to the raw input, `named_any` selects exactly the stored rows whose name equals one of the normalised entries up to ASCII case |
| `Resolver.NamedLikeAnyIsSubstring` | lib/acts_as_taggable_on/tag.rb:31-33 | for a non-empty list of non-nil entries none of which falls back to the raw input, `named_like_any` selects exactly the stored rows whose name contains one of the normalised entries up to ASCII case |
| `Resolver.NamedLikeAnyFindsEntry` | lib/acts_as_taggable_on/tag.rb:31-33 | a stored row named exactly as one entry normalises is selected by `named_like_any`, under any normaliser and even when the name holds a wildcard |
| `Resolver.Named` | lib/acts_as_taggable_on/tag.rb:19-21 | `named` selects stored rows only, never more than there are |
| `Resolver.NamedLike` | lib/acts_as_taggable_on/tag.rb:27-29 | `named_like` selects stored rows only, never more than there are |
| `Resolver.NamedLikeAny` | lib/acts_as_taggable_on/tag.rb:31-33 | an empty list selects every row, and only stored rows are ever selected |
| `Resolver.NamedAny` | lib/acts_as_taggable_on/tag.rb:23 | an empty list selects every row, and only stored rows are ever selected |
| `Resolver.NamedNil` | lib/acts_as_taggable_on/tag.rb:19-29 | `named(nil)` selects nothing; `named_like(nil)` selects every row that has a name |
| `Resolver.FindOrCreateWithLikeByName` | lib/acts_as_taggable_on/tag.rb:37-39 | when some row matches, the result is the first matching row and the table is unchanged; otherwise the result carries the normalised name, is saved exactly when that name is present, and a saved result is appended under the next id while an unsaved one leaves the table alone |
| `Resolver.NoMatchNotTaken` | lib/acts_as_taggable_on/tag.rb:38 | when no row matches the `named_like` pattern, no row carries the normalised name, so the `create` cannot fail on uniqueness |
| `Resolver.FindOrCreateFindsStored` | lib/acts_as_taggable_on/tag.rb:37-39 | a name already stored is found, not created again |
| `Resolver.CreateAll` | lib/acts_as_taggable_on/tag.rb:51 | one record per name, in order, each carrying its normalised name; the table grows by exactly the saved records, in order |
| `Resolver.CreateAllSavedIff` | lib/acts_as_taggable_on/tag.rb:51 | the k-th record is saved exactly when its normalised name is present, not stored beforehand, and not the normalised name of an earlier entry |
| `Resolver.CreateAllSaved` | lib/acts_as_taggable_on/tag.rb:51 | names that are present, not stored and pairwise different are all saved, and the table grows by all of them |
| `Resolver.FindOrCreateAllWithLikeByName` | lib/acts_as_taggable_on/tag.rb:41-54 | an empty list returns nothing and leaves the table unchanged; otherwise there is one result per fetched row plus one per missing entry |
| `Resolver.MissingIff` | lib/acts_as_taggable_on/tag.rb:47-50 | the entries kept for creation are exactly those whose normalised name no fetched tag carries; with nothing fetched, all of them |
| `Resolver.BatchShape` | lib/acts_as_taggable_on/tag.rb:46-53 | the fetched rows come first, then one record per missing entry in input order with that entry's normalised name; the table grows by exactly the saved ones |
| `Resolver.BatchCoversInput` | lib/acts_as_taggable_on/tag.rb:46-53 | every entry's normalised name is carried by some result tag |
| `Resolver.BatchSound` | lib/acts_as_taggable_on/tag.rb:46-53 | every result tag is a stored row that matches some entry, or a record named after some entry |
| `Resolver.FetchedMatches` | lib/acts_as_taggable_on/tag.rb:23-25 | a row `named_any` fetches is a stored row that matches one entry's normalised name |
| `Resolver.StoredRowFetched` | lib/acts_as_taggable_on/tag.rb:46-50 | a stored row named exactly as an entry normalises is fetched, so the entry is not created again |
| `Resolver.MissingNotTaken` | lib/acts_as_taggable_on/tag.rb:47-50 | in a valid table, an entry left for creation names no stored row |
| `Resolver.BatchSavesMissing` | lib/acts_as_taggable_on/tag.rb:41-54 | with present, pairwise different normalised entries and a valid table, every created record is saved and the table grows by exactly those records |
| `Resolver.CreateAllKeepsValid` | lib/acts_as_taggable_on/tag.rb:51 | creating a list of names keeps the table valid |
| `Resolver.BatchKeepsValid` | lib/acts_as_taggable_on/tag.rb:41-54 | the batch method keeps the table valid |
| `Resolver.RepeatedEntry` | lib/acts_as_taggable_on/tag.rb:47-51 | a new name listed twice is saved once; its second copy comes back unsaved under the same name, and the table grows by one row |
| `Fixtures.CaseVariantsCollapse` | spec/acts_as_taggable_on/tag_spec.rb:11-16 | three `create` calls of which the first two names normalise alike save the first and the third only |
| `Fixtures.AwesomeNormalised` | spec/acts_as_taggable_on/tag_spec.rb:13-14 | "Awesome" normalises to "awesome" |
| `Fixtures.AwesomeExample` | spec/acts_as_taggable_on/tag_spec.rb:11-20 | after creating "Awesome", "awesome" and "epic", the table holds two rows and `named_like_any(["awesome", "epic"])` finds two |
| `Fixtures.TrailingDropped` | lib/acts_as_taggable_on/tag.rb:62-64 | a lower-case word followed by one ASCII character that is not a capital, not strip-space and not on the allow-list, such as `%`, normalises to the word |
| `Fixtures.CooNormalised` | spec/acts_as_taggable_on/tag_spec.rb:118-123 | "coo%" normalises to "coo" |
| `Fixtures.PercentExample` | spec/acts_as_taggable_on/tag_spec.rb:118-136 | "coo%" is stored as "coo", and `named_like("coo%")` finds a stored "cool" |
| `Fixtures.PercentNormalised` | spec/acts_as_taggable_on/tag_spec.rb:118-136 | under `normalise` itself, with any table that fixes ASCII, "coo%" is stored as "coo" and `named_like("coo%")` returns both a stored "cool" and a stored "coo" |
| `Fixtures.EveryNameFound` | lib/acts_as_taggable_on/tag.rb:31-33 | when every stored row is named exactly as one of the normalised entries, `named_like_any` returns the whole table, in order |
| `Fixtures.DoubleSpaceSqueezed` | spec/acts_as_taggable_on/tag_spec.rb:151-158 | "test test2" normalises to itself, and "test  test2" to "test test2" |

## Left out

- The `rescue NoMethodError` branch of `normalise` (tag.rb:65-68) is not modelled. It catches a fault inside ActiveSupport's transliteration, which is foreign code. The model's transliteration is total.
- `comparable_name` for Ruby before 1.9 (`mb_chars.downcase`, tag.rb:95-97) is not modelled. Nor is the Unicode case mapping that Ruby 2.4 and later give `downcase`. The model downcases ASCII letters only, as Ruby 1.9 does.
- The real transliteration table is not modelled; it is the parameter `tr`. The code depends on the Unicode normalisation that ActiveSupport applies before the table lookup.
- `blank?` in the model treats only ASCII whitespace as blank. Unicode spaces, which ActiveSupport's `[[:space:]]` also matches, are not modelled.
- Ruby 1.9's `strip` keeps a leading NUL, which later Ruby versions remove. The model removes NUL at both ends.
- `like_operator` is not modelled: `ILIKE` on PostgreSQL, `LIKE` elsewhere. Neither are database collations or the escape character. `LIKE` is modelled as case-insensitive for ASCII letters with no escape character, so `%` and `_` inside a name act as wildcards.
- `sanitize_sql` quoting and the `" OR "` join are not modelled; the scopes are modelled at the level of rows selected.
- The `count` reader (tag.rb:85-87) is not modelled. It reads a column computed by a join query outside this record.
- The `taggings` association (tag.rb:10) is not modelled, nor its `:dependent => :destroy`. They belong to the tagging model.
- `attr_accessible` and the ActiveRecord 2 backports (tag.rb:3-6) are not modelled. They are framework configuration.
- Database-level constraints, storage failures, concurrent callers and the atomicity of a batch are not modelled. The table is a value, and operations run one at a time.
- `[list].flatten` (tag.rb:42) is not modelled. The batch method takes an already flat sequence of possibly-nil names.
- `Resolver.Named` states only that it selects stored rows. What it selects is stated by `Resolver.NamedIsCaseInsensitiveEquality`, for names that do not fall back to the raw input.
- `Resolver.NamedLike` states only that it selects stored rows. What it selects is stated by `Resolver.NamedLikeIsSubstring`, for names that do not fall back to the raw input.
- `Resolver.NamedAny` states only its empty-list behaviour and that it selects stored rows. What it selects is stated by `Resolver.NamedAnyIsCaseInsensitiveMembership`, for entries that do not fall back to the raw input.
- `Resolver.NamedLikeAny` states only its empty-list behaviour and that it selects stored rows. What it selects is stated by `Resolver.NamedLikeAnyIsSubstring` for entries that do not fall back to the raw input, and by `Resolver.NamedLikeAnyFindsEntry` for rows named exactly as an entry.
- `Resolver.CreateAll` does not state in its own contract which records are saved. `Resolver.CreateAllSavedIff` states it.
- `Text.Squeeze` and `Text.SqueezeKeeps` do not state, for arbitrary text, that a run of spaces between two other characters leaves exactly one space behind. They state that only spaces are removed and that no two spaces stay adjacent; `Text.SqueezeBetween` states the single space for two words around one run.
- `Normaliser.NormaliseKeepsTagChars` pins the tag characters of a normalised name, not its spaces. Where the spaces go is stated only for two words around one run of spaces, by `Normaliser.WordsJoined`.
- `Tags.ToS` carries no contract of its own: `to_s` is the name. `Tags.AssignedNameStable` states what it returns after `name=`.
- `Resolver.NamedIsCaseInsensitiveEquality` covers only a name whose normalisation does not fall back to the raw input. A fallback name may hold `%` or `_`, which `LIKE` reads as wildcards.
- `Resolver.NamedLikeIsSubstring` covers only a name whose normalisation does not fall back to the raw input, for the same reason.
- `Resolver.NamedAnyIsCaseInsensitiveMembership` covers only a non-empty list of non-nil entries none of which falls back to the raw input. An empty list selects every row (`Resolver.NamedAny` states that), a nil entry binds `NULL`, and a fallback entry may hold wildcards.
- `Resolver.NamedLikeAnyIsSubstring` covers only a non-empty list of non-nil entries none of which falls back to the raw input. An empty list selects every row. A nil entry binds `%%` (tag.rb:32 interpolates the nil normalisation into `"%#{...}%"`), which selects every row that has a name, as `Resolver.NamedNil` shows for `named_like`. A fallback entry may hold wildcards.
- `Fixtures.TrailingDropped` covers only a trailing ASCII character that is not a capital and not strip-space. A capital is downcased onto the allow-list first ("cooA" normalises to "cooa"), and a non-ASCII character goes through the transliteration table.
- `Fixtures.EveryNameFound` states the case where every stored row is named after an entry. The row-by-row fact for any table is `Resolver.NamedLikeAnyFindsEntry`.
- `Normaliser.Transliterate` states in its own contract only which characters appear in the result. That each character is replaced in place, keeping order and count, is stated by `Normaliser.TransliterateOne` and `Normaliser.TransliterateConcat`.
- `Tags.SafeName` returns nil for a nil name. In Ruby, `safe_name` on a nil name raises `NoMethodError` (`nil.gsub`, tag.rb:90); the model has no exceptions, so it gives nil instead.

=== FILE: fixtures.dfy ===
/** The behaviour of the model on the inputs the repository's own examples
    use (spec/acts_as_taggable_on/tag_spec.rb), under any transliteration
    table that fixes ASCII. Two of those examples expect what the code
    cannot give; `AwesomeExample` and `PercentExample` state what it gives
    instead. */
module Fixtures {
  import opened Optional
  import opened Text
  import opened Seqs
  import opened Normaliser
  import opened Like
  import opened Tags
  import opened Resolver

  /** A lower-case word is its own normalisation. */
  lemma WordFixed(w: string, tr: Transliteration)
    requires AsciiFixed(tr)
    requires |w| > 0 && forall k :: 0 <= k < |w| ==> IsLower(w[k])
    ensures Normalise(Some(w), tr) == Some(w)
  {
    assert Canonical(w);
    CanonicalFixed(w, tr);
  }

  /** Three `create` calls, of which the first two names normalise alike:
      the second fails the uniqueness validation, so the table holds two
      rows. */
  lemma CaseVariantsCollapse(norm: NormaliseFn, upper: Option<string>, lower: Option<string>, other: Option<string>)
    requires norm(upper) == norm(lower)
    requires Present(norm(lower)) && Present(norm(other)) && norm(lower) != norm(other)
    ensures var c1 := Create(Store([]), upper, norm);
      var c2 := Create(c1.store, lower, norm);
      var c3 := Create(c2.store, other, norm);
      && c1.tag.Saved() && !c2.tag.Saved() && c3.tag.Saved()
      && c3.store.rows == [Tag(Some(1), norm(lower)), Tag(Some(2), norm(other))]
  {
    var c1 := Create(Store([]), upper, norm);
    assert c1.store.rows[0].name == norm(lower);
    var c2 := Create(c1.store, lower, norm);
    assert !Taken(c2.store, norm(other));
  }

  /** `named_like_any` finds every row whose name is the normalisation of
      one of the entries. */
  lemma EveryNameFound(store: Store, list: seq<Option<string>>, norm: NormaliseFn)
    requires forall k :: 0 <= k < |store.rows| ==>
      exists i :: 0 <= i < |list| && norm(list[i]).Some? && store.rows[k].name == norm(list[i])
    ensures NamedLikeAny(store, list, norm) == store.rows
  {
    if |list| > 0 {
      var patterns := ContainsPatterns(list, norm);
      forall k | 0 <= k < |store.rows|
        ensures AnyMatcher(patterns)(store.rows[k])
      {
        var i :| 0 <= i < |list| && norm(list[i]).Some? && store.rows[k].name == norm(list[i]);
        LikeSurrounded(norm(list[i]).value);
        assert RowLike(store.rows[k], patterns[i]);
      }
      FilterAll(store.rows, AnyMatcher(patterns));
    }
  }

  /** A word that downcases to small letters normalises to its downcasing. */
  lemma DowncasedWordFixed(w: string, tr: Transliteration)
    requires AsciiFixed(tr)
    requires |w| > 0 && forall k :: 0 <= k < |w| ==> IsLower(Downcase(w)[k])
    ensures Normalise(Some(w), tr) == Some(Downcase(w))
  {
    var d := Downcase(w);
    WordFixed(d, tr);
    DowncaseOfLower(d);
    CaseInsensitive(w, d, tr);
  }

  /** `normalise` sends "Awesome" to "awesome". */
  lemma AwesomeNormalised(tr: Transliteration)
    requires AsciiFixed(tr)
    ensures Normalise(Some("Awesome"), tr) == Some("awesome")
  {
    assert Downcase("Awesome") == "awesome" by {
      assert Downcase("Awesome")[0] == 'a';
    }
    DowncasedWordFixed("Awesome", tr);
  }

  /** The "named like any" example (tag_spec.rb:11-20), under a normaliser
      that does what `AwesomeNormalised` and `WordFixed` show `normalise`
      does: of its three
      `create` calls only two save, and `named_like_any(["awesome", "epic"])`
      finds two rows where the example expects three. */
  lemma AwesomeExample(norm: NormaliseFn)
    requires norm(Some("Awesome")) == norm(Some("awesome")) == Some("awesome")
    requires norm(Some("epic")) == Some("epic")
    ensures var c1 := Create(Store([]), Some("Awesome"), norm);
      var c2 := Create(c1.store, Some("awesome"), norm);
      var c3 := Create(c2.store, Some("epic"), norm);
      && !c2.tag.Saved()
      && c3.store.rows == [Tag(Some(1), Some("awesome")), Tag(Some(2), Some("epic"))]
      && |NamedLikeAny(c3.store, [Some("awesome"), Some("epic")], norm)| == 2
  {
    assert Present(Some("awesome")) by {
      assert !IsBlankChar("awesome"[0]);
    }
    assert Present(Some("epic")) by {
      assert !IsBlankChar("epic"[0]);
    }
    CaseVariantsCollapse(norm, Some("Awesome"), Some("awesome"), Some("epic"));
    var rows := [Tag(Some(1), Some("awesome")), Tag(Some(2), Some("epic"))];
    var list := [Some("awesome"), Some("epic")];
    assert rows[0].name == norm(list[0]) && rows[1].name == norm(list[1]);
    EveryNameFound(Store(rows), list, norm);
  }

  /** `normalise` deletes a trailing character off the allow-list, such
      as `%`, after a lower-case word. */
  lemma TrailingDropped(w: string, x: char, tr: Transliteration)
    requires AsciiFixed(tr)
    requires |w| > 0 && forall k :: 0 <= k < |w| ==> IsLower(w[k])
    requires IsAscii(x) && !IsUpper(x) && !IsStripSpace(x) && !IsAllowed(x)
    ensures Normalise(Some(w + [x]), tr) == Some(w)
  {
    TrailingCleaned(w, x, tr);
    assert Canonical(w);
    StripOfCanonical(w);
    assert !Blank(w) by {
      assert !IsBlankChar(w[0]);
    }
    NormaliseOfCleaned(w + [x], tr);
  }

  lemma TrailingCleaned(w: string, x: char, tr: Transliteration)
    requires AsciiFixed(tr)
    requires |w| > 0 && forall k :: 0 <= k < |w| ==> IsLower(w[k])
    requires IsAscii(x) && !IsUpper(x) && !IsStripSpace(x) && !IsAllowed(x)
    ensures Cleaned(w + [x], tr) == w
  {
    var s := w + [x];
    TrailingUnchanged(w, x, tr);
    DroppedLast(w, x);
    assert NoDoubleSpace(w);
    assert Squeeze(w) == w;
  }

  /** Downcasing, transliterating and stripping leave such a string alone. */
  lemma TrailingUnchanged(w: string, x: char, tr: Transliteration)
    requires AsciiFixed(tr)
    requires |w| > 0 && forall k :: 0 <= k < |w| ==> IsLower(w[k])
    requires IsAscii(x) && !IsUpper(x) && !IsStripSpace(x)
    ensures Strip(Transliterate(Downcase(w + [x]), tr)) == w + [x]
  {
    var s := w + [x];
    LowerAscii(w, x);
    DowncaseOfLower(s);
    TransliterateAscii(s, tr);
    EndsKept(w, x);
  }

  /** A word followed by one more character, neither end strip-space, is
      left alone by `strip`. */
  lemma EndsKept(w: string, x: char)
    requires |w| > 0 && !IsStripSpace(w[0]) && !IsStripSpace(x)
    ensures Strip(w + [x]) == w + [x]
  {
    var s := w + [x];
    assert s[0] == w[0] && s[|s| - 1] == x;
  }

  lemma LowerAscii(w: string, x: char)
    requires forall k :: 0 <= k < |w| ==> IsLower(w[k])
    requires IsAscii(x) && !IsUpper(x)
    ensures NoUpper(w + [x])
    ensures forall k :: 0 <= k < |w + [x]| ==> IsAscii((w + [x])[k])
  {
    var s := w + [x];
    forall k | 0 <= k < |s|
      ensures !IsUpper(s[k]) && IsAscii(s[k])
    {
      if k < |w| {
        assert s[k] == w[k];
      }
    }
  }

  /** Filtering a word of allowed characters followed by one that is not. */
  lemma DroppedLast(w: string, x: char)
    requires forall k :: 0 <= k < |w| ==> IsLower(w[k])
    requires !IsAllowed(x)
    ensures Filter(w + [x], IsAllowed) == w
  {
    FilterNone([x], IsAllowed);
    FilterAll(w, IsAllowed);
    FilterConcat(w, [x], IsAllowed);
  }

  /** When cleaning leaves something, the result is the cleaned string
      stripped. */
  lemma NormaliseOfCleaned(s: string, tr: Transliteration)
    requires !Blank(Cleaned(s, tr))
    ensures Normalise(Some(s), tr) == Some(Strip(Cleaned(s, tr)))
  {
  }

  /** `normalise` sends "coo%" to "coo". */
  lemma CooNormalised(tr: Transliteration)
    requires AsciiFixed(tr)
    ensures Normalise(Some("coo%"), tr) == Some("coo")
  {
    assert "coo%" == "coo" + ['%'];
    TrailingDropped("coo", '%', tr);
  }

  /** The wildcard example (tag_spec.rb:118-136), under a normaliser that
      does what `CooNormalised` shows `normalise` does: "coo%" is stored as
      "coo", and `named_like("coo%")` binds `%coo%`, which a stored "cool"
      matches. No wildcard from the caller reaches the pattern, so there is
      nothing to escape, and the example's expectation for databases other
      than SQLite, that "cool" is not selected, does not hold. */
  lemma PercentExample(norm: NormaliseFn)
    requires norm(Some("coo%")) == Some("coo")
    ensures Create(Store([]), Some("coo%"), norm).tag.name == Some("coo")
    ensures var store := Store([Tag(Some(1), Some("cool")), Tag(Some(2), Some("coo"))]);
      NamedLike(store, Some("coo%"), norm) == store.rows
  {
    var store := Store([Tag(Some(1), Some("cool")), Tag(Some(2), Some("coo"))]);
    var p := Matcher(ContainsPattern(Some("coo%"), norm));
    assert ContainsPattern(Some("coo%"), norm) == Some("%" + "coo" + "%");
    LikeSurrounded("coo");
    CoolMatches();
    assert p(store.rows[0]) && p(store.rows[1]);
    FilterAll(store.rows, p);
  }

  /** The wildcard example under `normalise` itself. */
  lemma PercentNormalised(tr: Transliteration)
    requires AsciiFixed(tr)
    ensures Create(Store([]), Some("coo%"), NormaliseWith(tr)).tag.name == Some("coo")
    ensures var store := Store([Tag(Some(1), Some("cool")), Tag(Some(2), Some("coo"))]);
      NamedLike(store, Some("coo%"), NormaliseWith(tr)) == store.rows
  {
    CooNormalised(tr);
    PercentExample(NormaliseWith(tr));
  }

  lemma CoolMatches()
    ensures Like.Like("cool", "%" + "coo" + "%")
  {
    assert NoWildcards("coo");
    LikePrefix("cool", "coo");
    assert IsPrefix(Downcase("coo"), Downcase("cool"));
    LikeStar("cool", "coo" + "%");
    assert "%" + "coo" + "%" == "%" + ("coo" + "%");
  }

  /** `normalise` keeps a single space between words (tag_spec.rb:151-154)
      and turns a run of spaces into one (tag_spec.rb:155-158). */
  lemma DoubleSpaceSqueezed(tr: Transliteration)
    requires AsciiFixed(tr)
    ensures Normalise(Some("test test2"), tr) == Some("test test2")
    ensures Normalise(Some("test  test2"), tr) == Some("test test2")
  {
    assert IsWord("test") by {
      assert forall k :: 0 <= k < 4 ==> IsLower("test"[k]);
    }
    assert IsWord("test2") by {
      assert forall k :: 0 <= k < 4 ==> IsLower("test2"[k]);
      assert IsDigit("test2"[4]);
    }
    assert "test  test2" == "test" + Spaces(2) + "test2";
    assert "test test2" == "test" + Spaces(1) + "test2" == "test" + " " + "test2";
    WordsJoined("test", 1, "test2", tr);
    WordsJoined("test", 2, "test2", tr);
  }
}

=== FILE: like.dfy ===
/** The SQL `LIKE` test the tag scopes use (tag.rb:19-33), with the
    wildcards `%` (any run of characters) and `_` (any one character), and
    letters compared without regard to ASCII case, as MySQL's default
    collation and PostgreSQL's `ILIKE` do. */
module Like {
  import opened Text

  /** The characters compare equal under the case-insensitive collation. */
  predicate SameLetter(a: char, b: char) {
    DowncaseChar(a) == DowncaseChar(b)
  }

  /** `value LIKE pattern`. */
  predicate Like(value: string, pattern: string)
    decreases |value| + |pattern|
  {
    if |pattern| == 0 then |value| == 0
    else if pattern[0] == '%' then
      Like(value, pattern[1..]) || (|value| > 0 && Like(value[1..], pattern))
    else
      |value| > 0 && (pattern[0] == '_' || SameLetter(pattern[0], value[0]))
      && Like(value[1..], pattern[1..])
  }

  /** The pattern holds no wildcard, so it stands for itself. */
  predicate NoWildcards(p: string) {
    '%' !in p && '_' !in p
  }

  /** `a` is a prefix of `b`. */
  predicate IsPrefix(a: string, b: string) {
    |a| <= |b| && b[..|a|] == a
  }

  /** `a` occurs somewhere inside `b`. */
  predicate IsInfix(a: string, b: string)
    decreases |b|
  {
    IsPrefix(a, b) || (|b| > 0 && IsInfix(a, b[1..]))
  }

  /** A lone `%` matches every value. */
  lemma {:induction false} LikeAnything(v: string)
    ensures Like(v, "%")
    decreases |v|
  {
    assert "%"[1..] == [];
    if |v| > 0 {
      LikeAnything(v[1..]);
    }
  }

  /** Every value matches itself used as a pattern: `%` and `_` match their
      own literal characters too. */
  lemma {:induction false} LikeSelf(v: string)
    ensures Like(v, v)
    decreases |v|
  {
    if |v| > 0 {
      LikeSelf(v[1..]);
      if v[0] == '%' {
        assert Like(v[1..], v) by {
          LikeStar(v[1..], v[1..]);
          assert v == "%" + v[1..];
        }
      }
    }
  }

  /** A leading `%` may match nothing. */
  lemma LikeStar(v: string, p: string)
    requires Like(v, p)
    ensures Like(v, "%" + p)
  {
    assert ("%" + p)[1..] == p;
  }

  /** A trailing `%` may match nothing. */
  lemma {:induction false} LikeTrailing(v: string, p: string)
    requires Like(v, p)
    ensures Like(v, p + "%")
    decreases |v| + |p|
  {
    var q := p + "%";
    if |p| == 0 {
      assert q == "%";
      LikeAnything(v);
    } else {
      assert q[0] == p[0] && q[1..] == p[1..] + "%";
      if p[0] == '%' {
        if Like(v, p[1..]) {
          LikeTrailing(v, p[1..]);
        } else {
          LikeTrailing(v[1..], p);
        }
      } else {
        LikeTrailing(v[1..], p[1..]);
      }
    }
  }

  /** Every value matches the `named_like` pattern built from itself. */
  lemma LikeSurrounded(v: string)
    ensures Like(v, "%" + v + "%")
  {
    LikeSelf(v);
    LikeTrailing(v, v);
    LikeStar(v, v + "%");
    assert "%" + v + "%" == "%" + (v + "%");
  }

  /** Without wildcards, `LIKE` is equality up to ASCII case. */
  lemma {:induction false} LikeExact(v: string, p: string)
    requires NoWildcards(p)
    ensures Like(v, p) <==> Downcase(v) == Downcase(p)
    decreases |p|
  {
    if |p| > 0 && |v| > 0 {
      assert p[0] in p;
      assert NoWildcards(p[1..]) by {
        assert forall c :: c in p[1..] ==> c in p;
      }
      LikeExact(v[1..], p[1..]);
      DowncaseCons(v);
      DowncaseCons(p);
      var dv, dp := Downcase(v), Downcase(p);
      if dv == dp {
        assert dv[0] == dp[0] && dv[1..] == dp[1..];
      }
    } else if |p| > 0 {
      assert Downcase(p)[0] == DowncaseChar(p[0]);
    } else if |v| > 0 {
      assert Downcase(v)[0] == DowncaseChar(v[0]);
    }
  }

  /** Without wildcards, `LIKE 'p%'` tests for a prefix up to ASCII case. */
  lemma {:induction false} LikePrefix(v: string, p: string)
    requires NoWildcards(p)
    ensures Like(v, p + "%") <==> IsPrefix(Downcase(p), Downcase(v))
    decreases |p|
  {
    if |p| == 0 {
      assert p + "%" == "%";
      LikeAnything(v);
    } else {
      assert (p + "%")[0] == p[0];
      assert (p + "%")[1..] == p[1..] + "%";
      assert NoWildcards(p[1..]) by {
        assert forall c :: c in p[1..] ==> c in p;
      }
      assert p[0] in p;
      DowncaseCons(p);
      if |v| > 0 {
        LikePrefix(v[1..], p[1..]);
        DowncaseCons(v);
        var dv, dp := Downcase(v), Downcase(p);
        assert IsPrefix(dp, dv) <==> dp[0] == dv[0] && IsPrefix(dp[1..], dv[1..]) by {
          assert dp == [dp[0]] + dp[1..];
          if IsPrefix(dp, dv) {
            assert dv[1..][..|dp| - 1] == dv[..|dp|][1..];
          }
          if dp[0] == dv[0] && IsPrefix(dp[1..], dv[1..]) {
            assert dv[..|dp|] == [dv[0]] + dv[1..][..|dp| - 1];
          }
        }
        assert dv[1..] == Downcase(v[1..]) && dp[1..] == Downcase(p[1..]);
      }
    }
  }

  /** Without wildcards, `LIKE '%p%'` tests for a substring up to ASCII
      case: this is what `named_like` asks of the store. */
  lemma {:induction false} LikeContains(v: string, p: string)
    requires NoWildcards(p)
    ensures Like(v, "%" + p + "%") <==> IsInfix(Downcase(p), Downcase(v))
    decreases |v|
  {
    var q := "%" + p + "%";
    assert q[0] == '%';
    assert q[1..] == p + "%";
    LikePrefix(v, p);
    if |v| > 0 {
      LikeContains(v[1..], p);
      DowncaseCons(v);
      assert Downcase(v)[1..] == Downcase(v[1..]);
    }
  }
}

=== FILE: normaliser.dfy ===
/** `Tag.normalise` (tag.rb:60-69): raw tag text to its canonical name.

    The pipeline is: downcase, transliterate to ASCII, strip, delete every
    character outside `[-+a-z0-9 ]`, squeeze runs of spaces; if what is left
    is blank, fall back to the raw input; strip the result. */
module Normaliser {
  import opened Optional
  import opened Text
  import opened Seqs

  /** What `ActiveSupport::Inflector.transliterate` turns each character
      into. The real table belongs to ActiveSupport, so it is a parameter. */
  type Transliteration = char -> string

  /** The one property of the table the model relies on: an ASCII character
      is its own transliteration. */
  predicate AsciiFixed(tr: Transliteration) {
    forall c :: IsAscii(c) ==> tr(c) == [c]
  }

  function Transliterate(s: string, tr: Transliteration): (r: string)
    ensures forall c :: c in r ==> exists k :: 0 <= k < |s| && c in tr(s[k])
    ensures forall k, c :: 0 <= k < |s| && c in tr(s[k]) ==> c in r
    decreases |s|
  {
    if |s| == 0 then [] else tr(s[0]) + Transliterate(s[1..], tr)
  }

  /** Each character is replaced in place: one character becomes its own
      table entry ... */
  lemma TransliterateOne(c: char, tr: Transliteration)
    ensures Transliterate([c], tr) == tr(c)
  {
  }

  /** ... and the text of a concatenation is the two texts in order, so the
      entries keep the order and number of the input's characters. */
  lemma {:induction false} TransliterateConcat(a: string, b: string, tr: Transliteration)
    ensures Transliterate(a + b, tr) == Transliterate(a, tr) + Transliterate(b, tr)
    decreases |a|
  {
    if |a| == 0 {
      assert a + b == b;
    } else {
      assert (a + b)[1..] == a[1..] + b;
      TransliterateConcat(a[1..], b, tr);
    }
  }

  /** Under a table that fixes ASCII, an ASCII string is its own
      transliteration. */
  lemma {:induction false} TransliterateAscii(s: string, tr: Transliteration)
    requires AsciiFixed(tr)
    requires forall k :: 0 <= k < |s| ==> IsAscii(s[k])
    ensures Transliterate(s, tr) == s
    decreases |s|
  {
    if |s| > 0 {
      TransliterateAscii(s[1..], tr);
      assert s == [s[0]] + s[1..];
    }
  }

  /** Characters that carry a tag: `-`, `+`, small letters and digits. */
  predicate IsTagChar(c: char) {
    c == '-' || c == '+' || IsLower(c) || IsDigit(c)
  }

  /** The allow-list `[-+a-z0-9 ]`. */
  predicate IsAllowed(c: char) {
    IsTagChar(c) || c == ' '
  }

  /** The string tag.rb:62 computes, before the fallback of tag.rb:63. */
  function Cleaned(s: string, tr: Transliteration): string {
    Squeeze(Filter(Strip(Transliterate(Downcase(s), tr)), IsAllowed))
  }

  /** A canonical tag name: non-empty, over the allow-list, single spaces
      only, and no space at either end. */
  ghost predicate Canonical(n: string) {
    && |n| > 0
    && (forall k :: 0 <= k < |n| ==> IsAllowed(n[k]))
    && NoDoubleSpace(n)
    && n[0] != ' '
    && n[|n| - 1] != ' '
  }

  /** The character `c` contributes no tag character once downcased and
      transliterated. */
  predicate Lost(c: char, tr: Transliteration) {
    forall x :: x in tr(DowncaseChar(c)) ==> !IsTagChar(x)
  }

  /** Every character of `s` is lost, as in "日本国" under a table that maps
      those characters to `?`. */
  predicate FallsBack(s: string, tr: Transliteration) {
    forall c :: c in s ==> Lost(c, tr)
  }

  /** A tag character survives cleaning exactly when it occurs in the
      downcased transliteration. */
  lemma CleanedTagChars(s: string, tr: Transliteration, x: char)
    requires IsTagChar(x)
    ensures x in Cleaned(s, tr) <==> x in Transliterate(Downcase(s), tr)
  {
    var t := Transliterate(Downcase(s), tr);
    var f := Filter(Strip(t), IsAllowed);
    assert x in Cleaned(s, tr) <==> x in f;
    assert x in f <==> x in Strip(t);
  }

  /** Every character of the cleaned string is on the allow-list. */
  lemma CleanedAllowed(s: string, tr: Transliteration)
    ensures forall k :: 0 <= k < |Cleaned(s, tr)| ==> IsAllowed(Cleaned(s, tr)[k])
  {
    var f := Filter(Strip(Transliterate(Downcase(s), tr)), IsAllowed);
    forall k | 0 <= k < |Cleaned(s, tr)|
      ensures IsAllowed(Cleaned(s, tr)[k])
    {
      assert Cleaned(s, tr)[k] in f;
    }
  }

  /** A tag character occurs in the downcased transliteration exactly when
      some input character is not lost. */
  lemma TransliteratedTagChars(s: string, tr: Transliteration)
    ensures (exists x :: x in Transliterate(Downcase(s), tr) && IsTagChar(x)) <==> !FallsBack(s, tr)
  {
    var d := Downcase(s);
    var t := Transliterate(d, tr);
    if x :| x in t && IsTagChar(x) {
      var j :| 0 <= j < |d| && x in tr(d[j]);
      assert s[j] in s && !Lost(s[j], tr);
    }
    if !FallsBack(s, tr) {
      var c, x :| c in s && x in tr(DowncaseChar(c)) && IsTagChar(x);
      var j :| 0 <= j < |s| && s[j] == c;
      assert d[j] == DowncaseChar(c);
      assert x in t;
    }
  }

  /** The cleaned string is blank exactly when every input character is lost. */
  lemma CleanedBlankIff(s: string, tr: Transliteration)
    ensures Blank(Cleaned(s, tr)) <==> FallsBack(s, tr)
  {
    TransliteratedTagChars(s, tr);
    if !Blank(Cleaned(s, tr)) {
      NotBlankCleaned(s, tr);
    }
    if !FallsBack(s, tr) {
      var x :| x in Transliterate(Downcase(s), tr) && IsTagChar(x);
      CleanedTagChars(s, tr, x);
      NotBlankWith(Cleaned(s, tr), x);
    }
  }

  lemma NotBlankCleaned(s: string, tr: Transliteration)
    requires !Blank(Cleaned(s, tr))
    ensures exists x :: x in Transliterate(Downcase(s), tr) && IsTagChar(x)
  {
    var n := Cleaned(s, tr);
    CleanedAllowed(s, tr);
    var k :| 0 <= k < |n| && !IsBlankChar(n[k]);
    assert IsAllowed(n[k]);
    assert n[k] in n;
    CleanedTagChars(s, tr, n[k]);
  }

  lemma NotBlankWith(n: string, x: char)
    requires x in n && IsTagChar(x)
    ensures !Blank(n)
  {
    var k :| 0 <= k < |n| && n[k] == x;
  }

  /** Stripping a non-blank string over the allow-list with single spaces
      gives a canonical name. */
  lemma StripCanonical(n: string)
    requires forall k :: 0 <= k < |n| ==> IsAllowed(n[k])
    requires NoDoubleSpace(n)
    requires !Blank(n)
    ensures Canonical(Strip(n))
  {
    var r := Strip(n);
    assert |r| > 0 by {
      var k :| 0 <= k < |n| && !IsBlankChar(n[k]);
      assert IsTagChar(n[k]);
      assert n[k] in n;
    }
    AllowedSubset(r, n);
  }

  lemma AllowedSubset(r: string, n: string)
    requires forall k :: 0 <= k < |n| ==> IsAllowed(n[k])
    requires forall c :: c in r ==> c in n
    ensures forall j :: 0 <= j < |r| ==> IsAllowed(r[j])
  {
    forall j | 0 <= j < |r|
      ensures IsAllowed(r[j])
    {
      assert r[j] in n;
    }
  }

  /** `Tag.normalise`: `nil` stays `nil`; otherwise the cleaned string, or
      the raw input when the cleaned string is blank, stripped. */
  function Normalise(tag: Option<string>, tr: Transliteration): (r: Option<string>)
    ensures r.None? <==> tag.None?
  {
    match tag
    case None => None
    case Some(s) =>
      var normalised := Cleaned(s, tr);
      var result := if !Blank(normalised) then normalised else s;
      Some(Strip(result))
  }

  /** A normaliser of possibly-nil names, as the record and table code
      consume it: they depend on `normalise` only through its results. */
  type NormaliseFn = Option<string> -> Option<string>

  /** `Tag.normalise` under the transliteration table `tr`. */
  function NormaliseWith(tr: Transliteration): NormaliseFn {
    x => Normalise(x, tr)
  }

  /** When some character survives, the result is a canonical name; when
      none does, it is the raw input, stripped but not downcased. */
  lemma NormaliseShape(s: string, tr: Transliteration)
    ensures !FallsBack(s, tr) ==> Canonical(Normalise(Some(s), tr).value)
    ensures FallsBack(s, tr) ==> Normalise(Some(s), tr).value == Strip(s)
  {
    var normalised := Cleaned(s, tr);
    CleanedBlankIff(s, tr);
    if !Blank(normalised) {
      CleanedAllowed(s, tr);
      StripCanonical(normalised);
    }
  }

  /** When some character survives, normalising keeps every tag character
      of the downcased transliteration, in order, and adds none: the other
      steps only drop strip-space at the ends, characters off the allow-list
      and repeated spaces. */
  lemma NormaliseKeepsTagChars(s: string, tr: Transliteration)
    requires !FallsBack(s, tr)
    ensures Filter(Normalise(Some(s), tr).value, IsTagChar) == Filter(Transliterate(Downcase(s), tr), IsTagChar)
  {
    CleanedBlankIff(s, tr);
    CleaningKeepsTagChars(Transliterate(Downcase(s), tr));
  }

  /** The cleaning steps after transliteration, and the final strip, drop
      no tag character. */
  lemma CleaningKeepsTagChars(t: string)
    ensures Filter(Strip(Squeeze(Filter(Strip(t), IsAllowed))), IsTagChar) == Filter(t, IsTagChar)
  {
    var stripped := Strip(t);
    var allowed := Filter(stripped, IsAllowed);
    var squeezed := Squeeze(allowed);
    StripStep(t, stripped);
    FilterNarrow(stripped, IsAllowed, IsTagChar);
    SqueezeStep(allowed, squeezed);
    StripStep(squeezed, Strip(squeezed));
  }

  /** Squeezing drops no tag character. */
  lemma SqueezeStep(x: string, y: string)
    requires y == Squeeze(x)
    ensures Filter(y, IsTagChar) == Filter(x, IsTagChar)
  {
    assert !IsTagChar(' ');
    SqueezeKeeps(x, IsTagChar);
  }

  /** One strip drops no tag character. */
  lemma StripStep(x: string, y: string)
    requires y == Strip(x)
    ensures Filter(y, IsTagChar) == Filter(x, IsTagChar)
  {
    StripKeeps(x, IsTagChar);
  }

  /** A canonical name is its own normalisation. */
  lemma CanonicalFixed(n: string, tr: Transliteration)
    requires AsciiFixed(tr)
    requires Canonical(n)
    ensures Normalise(Some(n), tr) == Some(n)
  {
    StripOfCanonical(n);
    CleanedCanonical(n, tr);
  }

  lemma StripOfCanonical(n: string)
    requires Canonical(n)
    ensures Strip(n) == n
  {
    assert IsAllowed(n[0]) && IsAllowed(n[|n| - 1]);
  }

  lemma DowncaseOfCanonical(n: string)
    requires Canonical(n)
    ensures Downcase(n) == n
  {
    assert NoUpper(n);
    DowncaseOfLower(n);
  }

  lemma TransliterateOfCanonical(n: string, tr: Transliteration)
    requires AsciiFixed(tr)
    requires Canonical(n)
    ensures Transliterate(n, tr) == n
  {
    assert forall k :: 0 <= k < |n| ==> IsAscii(n[k]);
    TransliterateAscii(n, tr);
  }

  /** Cleaning leaves a canonical name as it is. */
  lemma CleanedCanonical(n: string, tr: Transliteration)
    requires AsciiFixed(tr)
    requires Canonical(n)
    ensures Cleaned(n, tr) == n
  {
    DowncaseOfCanonical(n);
    TransliterateOfCanonical(n, tr);
    StripOfCanonical(n);
    FilterAll(n, IsAllowed);
  }

  /** Normalising twice is normalising once, so a stored name is a fixed
      point of the `name=` setter. */
  lemma NormaliseIdempotent(tag: Option<string>, tr: Transliteration)
    requires AsciiFixed(tr)
    ensures Normalise(Normalise(tag, tr), tr) == Normalise(tag, tr)
  {
    if tag.Some? {
      var s := tag.value;
      NormaliseShape(s, tr);
      if FallsBack(s, tr) {
        NormaliseShape(Strip(s), tr);
        assert FallsBack(Strip(s), tr);
        StripIdempotent(s);
      } else {
        CanonicalFixed(Normalise(tag, tr).value, tr);
      }
    }
  }

  /** A string whose characters are all lost has no ASCII capital: each
      capital would downcase to a letter the table keeps. */
  lemma FallsBackNoUpper(s: string, tr: Transliteration)
    requires AsciiFixed(tr)
    requires FallsBack(s, tr)
    ensures NoUpper(s)
  {
    forall k | 0 <= k < |s|
      ensures !IsUpper(s[k])
    {
      var d := DowncaseChar(s[k]);
      assert s[k] in s;
      assert IsUpper(s[k]) ==> IsAscii(d) && d in tr(d) && IsTagChar(d);
    }
  }

  /** Inputs that differ only in the case of ASCII letters normalise to the
      same name. */
  lemma CaseInsensitive(s1: string, s2: string, tr: Transliteration)
    requires AsciiFixed(tr)
    requires Downcase(s1) == Downcase(s2)
    ensures Normalise(Some(s1), tr) == Normalise(Some(s2), tr)
  {
    CleanedBlankIff(s1, tr);
    CleanedBlankIff(s2, tr);
    NormaliseShape(s1, tr);
    NormaliseShape(s2, tr);
    if FallsBack(s1, tr) {
      FallsBackNoUpper(s1, tr);
      FallsBackNoUpper(s2, tr);
      DowncaseOfLower(s1);
      DowncaseOfLower(s2);
    }
  }

  /** The normalised name has no ASCII capital. */
  lemma NormalisedLowerCase(s: string, tr: Transliteration)
    requires AsciiFixed(tr)
    ensures NoUpper(Normalise(Some(s), tr).value)
  {
    NormaliseShape(s, tr);
    if FallsBack(s, tr) {
      FallsBackNoUpper(s, tr);
      StripNoUpper(s);
    } else {
      CanonicalNoUpper(Normalise(Some(s), tr).value);
    }
  }

  lemma StripNoUpper(s: string)
    requires NoUpper(s)
    ensures NoUpper(Strip(s))
  {
    var r := Strip(s);
    forall k | 0 <= k < |r|
      ensures !IsUpper(r[k])
    {
      assert r[k] in s;
    }
  }

  lemma CanonicalNoUpper(n: string)
    requires Canonical(n)
    ensures NoUpper(n)
  {
    assert forall k :: 0 <= k < |n| ==> IsAllowed(n[k]);
  }

  /** A word: non-empty, made of tag characters only. */
  predicate IsWord(w: string) {
    |w| > 0 && forall k :: 0 <= k < |w| ==> IsTagChar(w[k])
  }

  /** Two words separated by a run of spaces normalise to the same words
      separated by a single space: the only change is the squeeze. */
  lemma WordsJoined(w1: string, n: nat, w2: string, tr: Transliteration)
    requires AsciiFixed(tr)
    requires IsWord(w1) && IsWord(w2) && n >= 1
    ensures Normalise(Some(w1 + Spaces(n) + w2), tr) == Some(w1 + " " + w2)
  {
    var s := w1 + Spaces(n) + w2;
    var j := w1 + " " + w2;
    JoinedCleaned(w1, n, w2, tr);
    JoinedEnds(w1, " ", w2);
    assert !Blank(j) by {
      assert !IsBlankChar(j[0]);
    }
  }

  /** Cleaning two words separated by spaces only squeezes the spaces. */
  lemma JoinedCleaned(w1: string, n: nat, w2: string, tr: Transliteration)
    requires AsciiFixed(tr)
    requires IsWord(w1) && IsWord(w2) && n >= 1
    ensures Cleaned(w1 + Spaces(n) + w2, tr) == w1 + " " + w2
  {
    var s := w1 + Spaces(n) + w2;
    JoinedPrepared(w1, n, w2, tr);
    CleanedOfPrepared(s, tr);
    JoinedSqueezed(w1, n, w2);
  }

  lemma JoinedSqueezed(w1: string, n: nat, w2: string)
    requires IsWord(w1) && IsWord(w2) && n >= 1
    ensures Squeeze(w1 + Spaces(n) + w2) == w1 + " " + w2
  {
    WordSpaceless(w1);
    WordSpaceless(w2);
    SqueezeBetween(w1, n, w2);
  }

  lemma WordSpaceless(w: string)
    requires IsWord(w)
    ensures forall k :: 0 <= k < |w| ==> w[k] != ' '
  {
    forall k | 0 <= k < |w|
      ensures w[k] != ' '
    {
      assert IsTagChar(w[k]);
    }
  }

  /** Downcasing, transliterating, stripping and the allow-list leave two
      words joined by spaces alone. */
  lemma JoinedPrepared(w1: string, n: nat, w2: string, tr: Transliteration)
    requires AsciiFixed(tr)
    requires IsWord(w1) && IsWord(w2)
    ensures var s := w1 + Spaces(n) + w2;
      && Transliterate(Downcase(s), tr) == s
      && Strip(s) == s
      && Filter(s, IsAllowed) == s
  {
    var s := w1 + Spaces(n) + w2;
    JoinedAllowed(w1, n, w2);
    AllowedUnchanged(s, tr);
    JoinedEnds(w1, Spaces(n), w2);
  }

  /** Text over the allow-list is left alone by downcasing, transliterating
      under a table that fixes ASCII, and the allow-list itself. */
  lemma AllowedUnchanged(s: string, tr: Transliteration)
    requires AsciiFixed(tr)
    requires NoUpper(s)
    requires forall k :: 0 <= k < |s| ==> IsAllowed(s[k]) && IsAscii(s[k])
    ensures Transliterate(Downcase(s), tr) == s
    ensures Filter(s, IsAllowed) == s
  {
    DowncaseOfLower(s);
    TransliterateAscii(s, tr);
    FilterAll(s, IsAllowed);
  }

  /** When every step before the squeeze leaves `s` alone, cleaning is
      just the squeeze. */
  lemma CleanedOfPrepared(s: string, tr: Transliteration)
    requires Transliterate(Downcase(s), tr) == s
    requires Strip(s) == s
    requires Filter(s, IsAllowed) == s
    ensures Cleaned(s, tr) == Squeeze(s)
  {
  }

  /** Words joined by spaces are ASCII, on the allow-list and free of
      capitals. */
  lemma JoinedAllowed(w1: string, n: nat, w2: string)
    requires IsWord(w1) && IsWord(w2)
    ensures NoUpper(w1 + Spaces(n) + w2)
    ensures forall k :: 0 <= k < |w1 + Spaces(n) + w2| ==>
      IsAllowed((w1 + Spaces(n) + w2)[k]) && IsAscii((w1 + Spaces(n) + w2)[k])
  {
    var s := w1 + Spaces(n) + w2;
    forall k | 0 <= k < |s|
      ensures IsAllowed(s[k]) && IsAscii(s[k]) && !IsUpper(s[k])
    {
      if k < |w1| {
        assert s[k] == w1[k];
      } else if k < |w1| + n {
        assert s[k] == ' ';
      } else {
        assert s[k] == w2[k - |w1| - n];
      }
    }
  }

  /** Two words around any middle neither start nor end with strip-space,
      so `strip` leaves them alone. */
  lemma JoinedEnds(w1: string, mid: string, w2: string)
    requires IsWord(w1) && IsWord(w2)
    ensures Strip(w1 + mid + w2) == w1 + mid + w2
  {
    var s := w1 + mid + w2;
    assert s[0] == w1[0];
    assert s[|s| - 1] == w2[|w2| - 1];
  }
}

=== FILE: optional.dfy ===
/** Ruby's `nil` next to a present value. */
module Optional {

  datatype Option<+T> = None | Some(value: T)
}

=== FILE: resolver.dfy ===
/** The tag scopes and the find-or-create class methods of
    `ActsAsTaggableOn::Tag` (tag.rb:19-54): raw names are normalised, looked
    up in the tags table with `LIKE`, and created when missing.

    The operations take the normaliser as a parameter `norm`: they use
    `normalise` only through its results, so most lemmas hold for any `norm`,
    and the ones that depend on what `normalise` does instantiate it with
    `NormaliseWith(tr)`. */
module Resolver {
  import opened Optional
  import opened Text
  import opened Seqs
  import opened Normaliser
  import opened Like
  import opened Tags

  /** Result of an operation that yields a list of tags. */
  datatype Batch = Batch(store: Store, tags: seq<Tag>)

  /** `name LIKE pattern` on one row. A nil name or a NULL pattern (a nil
      bound into `?`) makes the comparison NULL, which selects nothing. */
  predicate RowLike(t: Tag, pattern: Option<string>) {
    t.name.Some? && pattern.Some? && Like.Like(t.name.value, pattern.value)
  }

  /** The row filter of a `where` with one `LIKE` pattern. */
  function Matcher(pattern: Option<string>): Tag -> bool {
    t => RowLike(t, pattern)
  }

  /** The row filter of a `where` that ORs several `LIKE` patterns. */
  function AnyMatcher(patterns: seq<Option<string>>): Tag -> bool {
    t => exists k :: 0 <= k < |patterns| && RowLike(t, patterns[k])
  }

  /** The pattern `named_like` binds: `"%#{normalise(name)}%"`, in which a
      nil normalisation interpolates as the empty string. */
  function ContainsPattern(raw: Option<string>, norm: NormaliseFn): Option<string> {
    match norm(raw)
    case None => Some("%%")
    case Some(n) => Some("%" + n + "%")
  }

  /** The patterns `named_any` ORs together, one per list entry. */
  function ExactPatterns(list: seq<Option<string>>, norm: NormaliseFn): (r: seq<Option<string>>)
    ensures |r| == |list|
  {
    seq(|list|, k requires 0 <= k < |list| => norm(list[k]))
  }

  /** The patterns `named_like_any` ORs together, one per list entry. */
  function ContainsPatterns(list: seq<Option<string>>, norm: NormaliseFn): (r: seq<Option<string>>)
    ensures |r| == |list|
  {
    seq(|list|, k requires 0 <= k < |list| => ContainsPattern(list[k], norm))
  }

  /** `named` (tag.rb:19-21): the stored rows, in storage order, whose
      name is `LIKE` the normalised name. */
  function Named(store: Store, raw: Option<string>, norm: NormaliseFn): (r: seq<Tag>)
    ensures |r| <= |store.rows|
    ensures forall t :: t in r ==> t in store.rows
  {
    Filter(store.rows, Matcher(norm(raw)))
  }

  /** `named_like` (tag.rb:27-29). */
  function NamedLike(store: Store, raw: Option<string>, norm: NormaliseFn): (r: seq<Tag>)
    ensures |r| <= |store.rows|
    ensures forall t :: t in r ==> t in store.rows
  {
    Filter(store.rows, Matcher(ContainsPattern(raw, norm)))
  }

  /** `named_any` (tag.rb:23-25). An empty list joins to the empty
      condition, which `where` ignores, so every row is selected. */
  function NamedAny(store: Store, list: seq<Option<string>>, norm: NormaliseFn): (r: seq<Tag>)
    ensures |list| == 0 ==> r == store.rows
    ensures forall t :: t in r ==> t in store.rows
  {
    if |list| == 0 then store.rows
    else Filter(store.rows, AnyMatcher(ExactPatterns(list, norm)))
  }

  /** `named_like_any` (tag.rb:31-33), with the same empty-list behaviour. */
  function NamedLikeAny(store: Store, list: seq<Option<string>>, norm: NormaliseFn): (r: seq<Tag>)
    ensures |list| == 0 ==> r == store.rows
    ensures forall t :: t in r ==> t in store.rows
  {
    if |list| == 0 then store.rows
    else Filter(store.rows, AnyMatcher(ContainsPatterns(list, norm)))
  }

  /** A stored row named exactly as some entry normalises is selected by
      `named_like_any`, under any normaliser and even when the name holds a
      wildcard: every name matches the pattern built from itself. */
  lemma NamedLikeAnyFindsEntry(store: Store, list: seq<Option<string>>, norm: NormaliseFn, i: nat, t: Tag)
    requires i < |list|
    requires t in store.rows
    requires norm(list[i]).Some? && t.name == norm(list[i])
    ensures t in NamedLikeAny(store, list, norm)
  {
    var patterns := ContainsPatterns(list, norm);
    LikeSurrounded(norm(list[i]).value);
    assert RowLike(t, patterns[i]);
    assert AnyMatcher(patterns)(t);
  }

  /** A canonical name holds no `LIKE` wildcard. */
  lemma CanonicalNoWildcards(n: string)
    requires Canonical(n)
    ensures NoWildcards(n)
  {
    assert forall k :: 0 <= k < |n| ==> IsAllowed(n[k]);
  }

  /** For a name that normalises without falling back, `named` selects the
      rows whose name equals the normalised name up to ASCII case. */
  lemma NamedIsCaseInsensitiveEquality(store: Store, raw: string, tr: Transliteration, t: Tag)
    requires !FallsBack(raw, tr)
    ensures t in Named(store, Some(raw), NormaliseWith(tr)) <==>
      t in store.rows && t.name.Some? && Downcase(t.name.value) == Downcase(Normalise(Some(raw), tr).value)
  {
    ExactEntry(raw, tr, t);
  }

  /** For a name that normalises without falling back, `named_like`
      selects the rows whose name contains the normalised name up to ASCII
      case: a substring test, not an equality. */
  lemma NamedLikeIsSubstring(store: Store, raw: string, tr: Transliteration, t: Tag)
    requires !FallsBack(raw, tr)
    ensures t in NamedLike(store, Some(raw), NormaliseWith(tr)) <==>
      t in store.rows && t.name.Some? && IsInfix(Downcase(Normalise(Some(raw), tr).value), Downcase(t.name.value))
  {
    ContainsEntry(raw, tr, t);
  }

  /** For entries that all normalise without falling back, `named_any`
      selects the rows whose name equals one of the normalised names up to
      ASCII case. */
  lemma NamedAnyIsCaseInsensitiveMembership(store: Store, list: seq<Option<string>>, tr: Transliteration, t: Tag)
    requires |list| > 0
    requires forall k :: 0 <= k < |list| ==> list[k].Some? && !FallsBack(list[k].value, tr)
    ensures t in NamedAny(store, list, NormaliseWith(tr)) <==>
      && t in store.rows && t.name.Some?
      && exists k :: 0 <= k < |list| && Downcase(t.name.value) == Downcase(Normalise(list[k], tr).value)
  {
    var patterns := ExactPatterns(list, NormaliseWith(tr));
    forall k | 0 <= k < |list|
      ensures RowLike(t, patterns[k]) <==> t.name.Some? && Downcase(t.name.value) == Downcase(Normalise(list[k], tr).value)
    {
      ExactEntry(list[k].value, tr, t);
    }
  }

  /** One entry of `named_any`: `LIKE` on the normalised name is equality
      up to ASCII case. */
  lemma ExactEntry(raw: string, tr: Transliteration, t: Tag)
    requires !FallsBack(raw, tr)
    ensures RowLike(t, Normalise(Some(raw), tr)) <==>
      t.name.Some? && Downcase(t.name.value) == Downcase(Normalise(Some(raw), tr).value)
  {
    var n := Normalise(Some(raw), tr).value;
    NormaliseShape(raw, tr);
    CanonicalNoWildcards(n);
    if t.name.Some? {
      LikeExact(t.name.value, n);
    }
  }

  /** For entries that all normalise without falling back, `named_like_any`
      selects the rows whose name contains one of the normalised names up to
      ASCII case. */
  lemma NamedLikeAnyIsSubstring(store: Store, list: seq<Option<string>>, tr: Transliteration, t: Tag)
    requires |list| > 0
    requires forall k :: 0 <= k < |list| ==> list[k].Some? && !FallsBack(list[k].value, tr)
    ensures t in NamedLikeAny(store, list, NormaliseWith(tr)) <==>
      && t in store.rows && t.name.Some?
      && exists k :: 0 <= k < |list| && IsInfix(Downcase(Normalise(list[k], tr).value), Downcase(t.name.value))
  {
    var patterns := ContainsPatterns(list, NormaliseWith(tr));
    forall k | 0 <= k < |list|
      ensures RowLike(t, patterns[k]) <==>
        t.name.Some? && IsInfix(Downcase(Normalise(list[k], tr).value), Downcase(t.name.value))
    {
      ContainsEntry(list[k].value, tr, t);
    }
  }

  /** One entry of `named_like_any`: `LIKE '%n%'` on the normalised name is
      a substring test up to ASCII case. */
  lemma ContainsEntry(raw: string, tr: Transliteration, t: Tag)
    requires !FallsBack(raw, tr)
    ensures RowLike(t, ContainsPattern(Some(raw), NormaliseWith(tr))) <==>
      t.name.Some? && IsInfix(Downcase(Normalise(Some(raw), tr).value), Downcase(t.name.value))
  {
    var n := Normalise(Some(raw), tr).value;
    NormaliseShape(raw, tr);
    CanonicalNoWildcards(n);
    if t.name.Some? {
      LikeContains(t.name.value, n);
    }
  }

  /** `named(nil)` selects nothing, while `named_like(nil)` binds `%%` and
      selects every row that has a name. */
  lemma NamedNil(store: Store, tr: Transliteration)
    ensures Named(store, None, NormaliseWith(tr)) == []
    ensures NamedLike(store, None, NormaliseWith(tr)) == Filter(store.rows, (t: Tag) => t.name.Some?)
  {
    forall t: Tag | t.name.Some?
      ensures Like.Like(t.name.value, "%%")
    {
      LikeAnything(t.name.value);
      assert "%%"[1..] == "%";
    }
    FilterNone(store.rows, Matcher(None));
    FilterSame(store.rows, Matcher(Some("%%")), (t: Tag) => t.name.Some?);
  }

  /** `find_or_create_with_like_by_name` (tag.rb:37-39): the first row
      `named_like` selects, or else a `create`. */
  function FindOrCreateWithLikeByName(store: Store, raw: Option<string>, norm: NormaliseFn): (r: Step)
    ensures FirstIndex(store.rows, Matcher(ContainsPattern(raw, norm))).Some? ==>
      r.store == store && r.tag == store.rows[FirstIndex(store.rows, Matcher(ContainsPattern(raw, norm))).value]
    ensures FirstIndex(store.rows, Matcher(ContainsPattern(raw, norm))).None? ==>
      && r.tag.name == norm(raw)
      && (r.tag.Saved() <==> Present(norm(raw)))
      && (r.tag.Saved() ==> r.tag.id == Some(|store.rows| + 1) && r.store.rows == store.rows + [r.tag])
      && (!r.tag.Saved() ==> r.store == store)
  {
    var found := NamedLike(store, raw, norm);
    FilterHead(store.rows, Matcher(ContainsPattern(raw, norm)));
    if |found| > 0 then Step(store, found[0])
    else
      NoMatchNotTaken(store, raw, norm);
      Create(store, raw, norm)
  }

  /** When no row matches the `named_like` pattern, no row carries the
      normalised name itself, since every name matches the pattern built
      from it; so the `create` that follows cannot fail on uniqueness. */
  lemma NoMatchNotTaken(store: Store, raw: Option<string>, norm: NormaliseFn)
    requires FirstIndex(store.rows, Matcher(ContainsPattern(raw, norm))).None?
    ensures norm(raw).Some? ==> !Taken(store, norm(raw))
  {
    if norm(raw).Some? {
      LikeSurrounded(norm(raw).value);
      forall k | 0 <= k < |store.rows|
        ensures store.rows[k].name != norm(raw)
      {
        assert !Matcher(ContainsPattern(raw, norm))(store.rows[k]);
      }
    }
  }

  /** Some fetched tag already carries `name`. */
  predicate Fetched(existing: seq<Tag>, name: Option<string>) {
    exists k :: 0 <= k < |existing| && existing[k].name == name
  }

  /** Keeps the list entries whose normalised name no fetched tag carries. */
  function MissingMatcher(existing: seq<Tag>, norm: NormaliseFn): Option<string> -> bool {
    x => !Fetched(existing, norm(x))
  }

  /** `new_tag_names` of tag.rb:47-50: the entries, in order, whose
      normalised name no fetched tag carries. */
  function Missing(list: seq<Option<string>>, existing: seq<Tag>, norm: NormaliseFn): seq<Option<string>> {
    Filter(list, MissingMatcher(existing, norm))
  }

  /** An entry is kept for creation exactly when no fetched tag carries its
      normalised name; with nothing fetched, every entry is kept. */
  lemma MissingIff(list: seq<Option<string>>, existing: seq<Tag>, norm: NormaliseFn, x: Option<string>)
    ensures x in Missing(list, existing, norm) <==>
      x in list && forall k :: 0 <= k < |existing| ==> existing[k].name != norm(x)
    ensures |existing| == 0 ==> Missing(list, existing, norm) == list
  {
    if |existing| == 0 {
      FilterAll(list, MissingMatcher(existing, norm));
    }
  }

  function IsSaved(t: Tag): bool {
    t.Saved()
  }

  /** `new_tag_names.map { |name| Tag.create(:name => name) }`: one `create`
      per name, in order, each seeing the rows the earlier ones saved. */
  function CreateAll(store: Store, names: seq<Option<string>>, norm: NormaliseFn): (r: Batch)
    ensures |r.tags| == |names|
    ensures forall k :: 0 <= k < |names| ==> r.tags[k].name == norm(names[k])
    ensures r.store.rows == store.rows + Filter(r.tags, IsSaved)
    decreases |names|
  {
    if |names| == 0 then Batch(store, [])
    else
      var first := Create(store, names[0], norm);
      var rest := CreateAll(first.store, names[1..], norm);
      CreateAllStep(store.rows, first.tag, first.store.rows, rest.store.rows, rest.tags);
      Batch(rest.store, [first.tag] + rest.tags)
  }

  /** Rows grow by the saved tags of one `create` followed by the rest. */
  lemma CreateAllStep(before: seq<Tag>, t: Tag, middle: seq<Tag>, after: seq<Tag>, tags: seq<Tag>)
    requires middle == if t.Saved() then before + [t] else before
    requires after == middle + Filter(tags, IsSaved)
    ensures after == before + Filter([t] + tags, IsSaved)
  {
    var rest := Filter(tags, IsSaved);
    FilterCons(t, tags, IsSaved);
    if t.Saved() {
      AppendAssoc(before, t, rest);
    }
  }

  /** `find_or_create_all_with_like_by_name` (tag.rb:41-54): the rows
      `named_any` fetches, followed by one `create` for each entry whose
      normalised name no fetched row carries. An empty list touches nothing. */
  function FindOrCreateAllWithLikeByName(store: Store, list: seq<Option<string>>, norm: NormaliseFn): (r: Batch)
    ensures |list| == 0 ==> r == Batch(store, [])
    ensures |list| > 0 ==> |r.tags| == |NamedAny(store, list, norm)| + |Missing(list, NamedAny(store, list, norm), norm)|
  {
    if |list| == 0 then Batch(store, [])
    else
      var existing := NamedAny(store, list, norm);
      var created := CreateAll(store, Missing(list, existing, norm), norm);
      Batch(created.store, existing + created.tags)
  }

  /** The result lists the fetched rows first, then one tag per missing
      entry carrying that entry's normalised name, and the table grows by
      exactly the created tags that were saved. */
  lemma BatchShape(store: Store, list: seq<Option<string>>, norm: NormaliseFn)
    requires |list| > 0
    ensures var r := FindOrCreateAllWithLikeByName(store, list, norm);
      var existing := NamedAny(store, list, norm);
      var missing := Missing(list, existing, norm);
      && r.tags[..|existing|] == existing
      && (forall k :: 0 <= k < |missing| ==> r.tags[|existing| + k].name == norm(missing[k]))
      && r.store.rows == store.rows + Filter(r.tags[|existing|..], IsSaved)
  {
    var r := FindOrCreateAllWithLikeByName(store, list, norm);
    var existing := NamedAny(store, list, norm);
    var created := CreateAll(store, Missing(list, existing, norm), norm);
    ConcatShape(existing, created.tags, r.tags);
  }

  /** Every list entry is represented in the result: some tag carries its
      normalised name, either a fetched row or a created record. */
  lemma BatchCoversInput(store: Store, list: seq<Option<string>>, norm: NormaliseFn, i: nat)
    requires i < |list|
    ensures var r := FindOrCreateAllWithLikeByName(store, list, norm);
      exists k :: 0 <= k < |r.tags| && r.tags[k].name == norm(list[i])
  {
    var existing := NamedAny(store, list, norm);
    var created := CreateAll(store, Missing(list, existing, norm), norm);
    var r := FindOrCreateAllWithLikeByName(store, list, norm);
    assert r.tags == existing + created.tags;
    CoveredBy(list, existing, norm, created.tags, i);
  }

  /** An entry's normalised name is carried by a fetched tag or, failing
      that, by the tag created for it. */
  lemma CoveredBy(list: seq<Option<string>>, existing: seq<Tag>, norm: NormaliseFn, created: seq<Tag>, i: nat)
    requires i < |list|
    requires |created| == |Missing(list, existing, norm)|
    requires forall k :: 0 <= k < |created| ==> created[k].name == norm(Missing(list, existing, norm)[k])
    ensures exists k :: 0 <= k < |existing + created| && (existing + created)[k].name == norm(list[i])
  {
    var all := existing + created;
    if Fetched(existing, norm(list[i])) {
      var k :| 0 <= k < |existing| && existing[k].name == norm(list[i]);
      assert all[k] == existing[k];
    } else {
      var missing := Missing(list, existing, norm);
      MissingIff(list, existing, norm, list[i]);
      var k :| 0 <= k < |missing| && missing[k] == list[i];
      assert all[|existing| + k] == created[k];
    }
  }

  /** A fetched row is a stored row that matches one entry's pattern. */
  lemma FetchedMatches(store: Store, list: seq<Option<string>>, norm: NormaliseFn, t: Tag)
    requires |list| > 0
    requires t in NamedAny(store, list, norm)
    ensures t in store.rows
    ensures exists i :: 0 <= i < |list| && RowLike(t, norm(list[i]))
  {
    var patterns := ExactPatterns(list, norm);
    var i :| 0 <= i < |patterns| && RowLike(t, patterns[i]);
    assert patterns[i] == norm(list[i]);
  }

  /** A fetched name is a stored name. */
  lemma FetchedTaken(store: Store, list: seq<Option<string>>, norm: NormaliseFn, name: Option<string>)
    requires |list| > 0
    ensures Fetched(NamedAny(store, list, norm), name) ==> Taken(store, name)
  {
    var existing := NamedAny(store, list, norm);
    if Fetched(existing, name) {
      var k :| 0 <= k < |existing| && existing[k].name == name;
      assert existing[k] in existing;
      FetchedMatches(store, list, norm, existing[k]);
      var m :| 0 <= m < |store.rows| && store.rows[m] == existing[k];
    }
  }

  /** A stored row whose name is exactly an entry's normalised name is
      fetched: with no escaping, every name matches itself under `LIKE`. */
  lemma StoredRowFetched(store: Store, list: seq<Option<string>>, norm: NormaliseFn, i: nat, t: Tag)
    requires i < |list|
    requires t in store.rows
    requires t.name.Some? && t.name == norm(list[i])
    ensures t in NamedAny(store, list, norm)
  {
    var patterns := ExactPatterns(list, norm);
    LikeSelf(t.name.value);
    assert RowLike(t, patterns[i]);
    assert AnyMatcher(patterns)(t);
  }

  /** In a valid table, a stored name equal to an entry's normalised name
      is among the fetched names. */
  lemma TakenFetched(store: Store, list: seq<Option<string>>, norm: NormaliseFn, i: nat)
    requires Valid(store)
    requires i < |list|
    ensures Taken(store, norm(list[i])) ==> Fetched(NamedAny(store, list, norm), norm(list[i]))
  {
    if Taken(store, norm(list[i])) {
      var k :| 0 <= k < |store.rows| && store.rows[k].name == norm(list[i]);
      var t := store.rows[k];
      assert Present(t.name);
      StoredRowFetched(store, list, norm, i, t);
      var existing := NamedAny(store, list, norm);
      var j :| 0 <= j < |existing| && existing[j] == t;
    }
  }

  /** In a valid table, an entry the fetch missed names no stored row, so
      its `create` can only fail the presence validation or collide with an
      earlier entry of the same list. */
  lemma MissingNotTaken(store: Store, list: seq<Option<string>>, norm: NormaliseFn, x: Option<string>)
    requires Valid(store)
    requires x in Missing(list, NamedAny(store, list, norm), norm)
    ensures !Taken(store, norm(x))
  {
    var i :| 0 <= i < |list| && list[i] == x;
    TakenFetched(store, list, norm, i);
  }

  /** Every result tag is accounted for: the fetched part holds stored rows
      that match some entry's pattern, and the created part holds records
      named after list entries. */
  lemma BatchSound(store: Store, list: seq<Option<string>>, norm: NormaliseFn, k: nat)
    requires |list| > 0
    requires k < |FindOrCreateAllWithLikeByName(store, list, norm).tags|
    ensures var t := FindOrCreateAllWithLikeByName(store, list, norm).tags[k];
      || (t in store.rows && exists i :: 0 <= i < |list| && RowLike(t, norm(list[i])))
      || (exists i :: 0 <= i < |list| && t.name == norm(list[i]))
  {
    var r := FindOrCreateAllWithLikeByName(store, list, norm);
    var existing := NamedAny(store, list, norm);
    var missing := Missing(list, existing, norm);
    BatchShape(store, list, norm);
    if k < |existing| {
      assert r.tags[k] == existing[k] by {
        assert r.tags[..|existing|][k] == r.tags[k];
      }
      assert existing[k] in existing;
      FetchedMatches(store, list, norm, existing[k]);
    } else {
      var m := k - |existing|;
      assert missing[m] in missing;
      var i :| 0 <= i < |list| && list[i] == missing[m];
      assert r.tags[|existing| + m].name == norm(list[i]);
    }
  }

  /** The k-th name is new to the batch: its normalisation is present, not
      stored beforehand, and not the normalisation of an earlier name. */
  predicate NewAt(store: Store, names: seq<Option<string>>, norm: NormaliseFn, k: nat)
    requires k < |names|
  {
    && Present(norm(names[k]))
    && !Taken(store, norm(names[k]))
    && forall j :: 0 <= j < k ==> norm(names[j]) != norm(names[k])
  }

  /** Which records `create` saves: exactly those of the new names. A name
      whose normalisation an earlier name shares finds that record's row
      taken, or fails presence as that one did. */
  lemma {:induction false} CreateAllSavedIff(store: Store, names: seq<Option<string>>, norm: NormaliseFn)
    ensures forall k :: 0 <= k < |names| ==>
      (CreateAll(store, names, norm).tags[k].Saved() <==> NewAt(store, names, norm, k))
    decreases |names|
  {
    if |names| > 0 {
      var first := Create(store, names[0], norm);
      CreateAllSavedIff(first.store, names[1..], norm);
      var r := CreateAll(store, names, norm);
      var tail := CreateAll(first.store, names[1..], norm);
      assert r.tags == [first.tag] + tail.tags;
      forall k | 0 < k < |names|
        ensures r.tags[k].Saved() <==> NewAt(store, names, norm, k)
      {
        assert r.tags[k] == tail.tags[k - 1];
        NewAtShift(store, names, norm, k);
      }
    }
  }

  /** Being new after the first `create` is being new among all the names. */
  lemma NewAtShift(store: Store, names: seq<Option<string>>, norm: NormaliseFn, k: nat)
    requires 0 < k < |names|
    ensures NewAt(Create(store, names[0], norm).store, names[1..], norm, k - 1) <==> NewAt(store, names, norm, k)
  {
    var first := Create(store, names[0], norm);
    var rest := names[1..];
    var n := norm(names[k]);
    assert rest[k - 1] == names[k];
    assert (forall j :: 0 <= j < k - 1 ==> norm(rest[j]) != n) <==>
      (forall j :: 1 <= j < k ==> norm(names[j]) != n) by {
      forall j | 0 <= j < k - 1
        ensures rest[j] == names[j + 1]
      {
      }
    }
    if first.tag.Saved() {
      TakenAfterAppend(store, first.tag, n);
    }
  }

  /** Creating names that are present, not yet stored and pairwise
      different saves every one of them, in order. */
  lemma {:induction false} CreateAllSaved(store: Store, names: seq<Option<string>>, norm: NormaliseFn)
    requires forall k :: 0 <= k < |names| ==> Present(norm(names[k]))
    requires forall k :: 0 <= k < |names| ==> !Taken(store, norm(names[k]))
    requires DistinctBy(names, norm)
    ensures forall k :: 0 <= k < |names| ==> CreateAll(store, names, norm).tags[k].Saved()
    ensures CreateAll(store, names, norm).store.rows == store.rows + CreateAll(store, names, norm).tags
    decreases |names|
  {
    if |names| > 0 {
      var first := Create(store, names[0], norm);
      var rest := names[1..];
      assert first.tag.Saved();
      forall k | 0 <= k < |rest|
        ensures !Taken(first.store, norm(rest[k]))
      {
        assert rest[k] == names[k + 1];
        assert norm(names[0]) != norm(names[k + 1]);
        TakenAfterAppend(store, first.tag, norm(rest[k]));
      }
      assert DistinctBy(rest, norm) by {
        forall i, j | 0 <= i < j < |rest|
          ensures norm(rest[i]) != norm(rest[j])
        {
          assert rest[i] == names[i + 1] && rest[j] == names[j + 1];
        }
      }
      CreateAllSaved(first.store, rest, norm);
      var r := CreateAll(store, names, norm);
      var tail := CreateAll(first.store, rest, norm);
      assert r.tags == [first.tag] + tail.tags;
      forall k | 0 <= k < |names|
        ensures r.tags[k].Saved()
      {
        if k > 0 {
          assert r.tags[k] == tail.tags[k - 1];
        }
      }
      AppendAssoc(store.rows, first.tag, tail.tags);
    }
  }

  /** When a valid table meets a list whose entries all normalise to
      present, pairwise different names, every missing entry is saved and
      the table grows by exactly the created tags. */
  lemma BatchSavesMissing(store: Store, list: seq<Option<string>>, norm: NormaliseFn)
    requires Valid(store)
    requires |list| > 0
    requires forall k :: 0 <= k < |list| ==> Present(norm(list[k]))
    requires DistinctBy(list, norm)
    ensures var r := FindOrCreateAllWithLikeByName(store, list, norm);
      var existing := NamedAny(store, list, norm);
      && (forall k :: |existing| <= k < |r.tags| ==> r.tags[k].Saved())
      && r.store.rows == store.rows + r.tags[|existing|..]
  {
    var r := FindOrCreateAllWithLikeByName(store, list, norm);
    var existing := NamedAny(store, list, norm);
    var missing := Missing(list, existing, norm);
    FilterDistinct(list, MissingMatcher(existing, norm), norm);
    forall k | 0 <= k < |missing|
      ensures Present(norm(missing[k])) && !Taken(store, norm(missing[k]))
    {
      assert missing[k] in missing;
      MissingNotTaken(store, list, norm, missing[k]);
    }
    CreateAllSaved(store, missing, norm);
    var created := CreateAll(store, missing, norm);
    ConcatShape(existing, created.tags, r.tags);
  }

  /** `create` over a list keeps the table valid. */
  lemma {:induction false} CreateAllKeepsValid(store: Store, names: seq<Option<string>>, norm: NormaliseFn)
    requires Valid(store)
    ensures Valid(CreateAll(store, names, norm).store)
    decreases |names|
  {
    if |names| > 0 {
      CreateKeepsValid(store, names[0], norm);
      CreateAllKeepsValid(Create(store, names[0], norm).store, names[1..], norm);
    }
  }

  /** `find_or_create_all_with_like_by_name` keeps the table valid. */
  lemma BatchKeepsValid(store: Store, list: seq<Option<string>>, norm: NormaliseFn)
    requires Valid(store)
    ensures Valid(FindOrCreateAllWithLikeByName(store, list, norm).store)
  {
    if |list| > 0 {
      CreateAllKeepsValid(store, Missing(list, NamedAny(store, list, norm), norm), norm);
    }
  }

  /** Creating the same name twice: the first record is saved, the second
      fails the uniqueness validation. */
  lemma CreateTwice(store: Store, x: Option<string>, norm: NormaliseFn)
    requires Present(norm(x))
    requires !Taken(store, norm(x))
    ensures var r := CreateAll(store, [x, x], norm);
      && r.tags[0].Saved() && !r.tags[1].Saved()
      && r.store.rows == store.rows + [r.tags[0]]
  {
    var first := Create(store, x, norm);
    TakenAfterAppend(store, first.tag, norm(x));
    var second := Create(first.store, x, norm);
    assert [x, x][1..] == [x];
    assert [x][1..] == [];
    assert CreateAll(first.store, [x], norm) == Batch(second.store, [second.tag]);
  }

  /** An entry whose name is not stored is missing, twice over. */
  lemma NothingFetched(store: Store, x: Option<string>, norm: NormaliseFn)
    requires !Taken(store, norm(x))
    ensures Missing([x, x], NamedAny(store, [x, x], norm), norm) == [x, x]
  {
    var list := [x, x];
    var existing := NamedAny(store, list, norm);
    FetchedTaken(store, list, norm, norm(x));
    assert MissingMatcher(existing, norm)(x);
    FilterAll(list, MissingMatcher(existing, norm));
  }

  /** The same entry twice, when it is not yet stored: the first copy is
      created and saved, the second fails the uniqueness validation and comes
      back unsaved under the same name, and the table grows by one row. */
  lemma RepeatedEntry(store: Store, x: Option<string>, norm: NormaliseFn)
    requires Present(norm(x))
    requires !Taken(store, norm(x))
    ensures var r := FindOrCreateAllWithLikeByName(store, [x, x], norm);
      var e := |NamedAny(store, [x, x], norm)|;
      && |r.tags| == e + 2
      && r.tags[e].Saved() && !r.tags[e + 1].Saved()
      && r.tags[e].name == r.tags[e + 1].name == norm(x)
      && r.store.rows == store.rows + [r.tags[e]]
  {
    var list := [x, x];
    var r := FindOrCreateAllWithLikeByName(store, list, norm);
    var existing := NamedAny(store, list, norm);
    NothingFetched(store, x, norm);
    CreateTwice(store, x, norm);
    var created := CreateAll(store, list, norm);
    assert r.tags == existing + created.tags;
    ConcatShape(existing, created.tags, r.tags);
  }

  /** A stored name is found again by `find_or_create_with_like_by_name`
      instead of being created twice: every name matches the pattern built
      from itself. */
  lemma FindOrCreateFindsStored(store: Store, raw: Option<string>, norm: NormaliseFn, i: nat)
    requires i < |store.rows|
    requires norm(raw).Some? && store.rows[i].name == norm(raw)
    ensures FindOrCreateWithLikeByName(store, raw, norm).store == store
    ensures FindOrCreateWithLikeByName(store, raw, norm).tag in store.rows
  {
    var p := Matcher(ContainsPattern(raw, norm));
    LikeSurrounded(norm(raw).value);
    assert p(store.rows[i]);
    FilterHead(store.rows, p);
    assert store.rows[i] in store.rows;
  }
}

=== FILE: seqs.dfy ===
/** Order-preserving selection over sequences: the shape of Ruby's
    `select`/`reject` and of a relational query that returns rows in
    storage order. */
module Seqs {
  import opened Optional

  /** The elements of `s` that satisfy `p`, in their original order. On a
      string this is Ruby's `gsub(/[^...]/, '')`, with `p` the class that
      is kept. */
  function Filter<T(!new)>(s: seq<T>, p: T -> bool): (r: seq<T>)
    ensures |r| <= |s|
    ensures forall k :: 0 <= k < |r| ==> p(r[k])
    ensures forall x :: x in r <==> x in s && p(x)
    decreases |s|
  {
    if |s| == 0 then []
    else (if p(s[0]) then [s[0]] else []) + Filter(s[1..], p)
  }

  /** Nothing is dropped when every element satisfies `p`. */
  lemma {:induction false} FilterAll<T(!new)>(s: seq<T>, p: T -> bool)
    requires forall k :: 0 <= k < |s| ==> p(s[k])
    ensures Filter(s, p) == s
    decreases |s|
  {
    if |s| > 0 {
      FilterAll(s[1..], p);
    }
  }

  /** Filtering returns its input exactly when every element satisfies `p`. */
  lemma FilterIdentity<T(!new)>(s: seq<T>, p: T -> bool)
    ensures Filter(s, p) == s <==> forall k :: 0 <= k < |s| ==> p(s[k])
  {
    if forall k :: 0 <= k < |s| ==> p(s[k]) {
      FilterAll(s, p);
    }
  }

  /** Everything is dropped when no element satisfies `p`. */
  lemma {:induction false} FilterNone<T(!new)>(s: seq<T>, p: T -> bool)
    requires forall k :: 0 <= k < |s| ==> !p(s[k])
    ensures Filter(s, p) == []
    decreases |s|
  {
    if |s| > 0 {
      FilterNone(s[1..], p);
    }
  }

  /** The position of the first element of `s` satisfying `p`, if any:
      an independent reference for "the first matching row". */
  function FirstIndex<T>(s: seq<T>, p: T -> bool): (r: Option<nat>)
    ensures r.Some? ==> r.value < |s| && p(s[r.value])
    ensures r.Some? ==> forall j :: 0 <= j < r.value ==> !p(s[j])
    ensures r.None? ==> forall j :: 0 <= j < |s| ==> !p(s[j])
    decreases |s|
  {
    if |s| == 0 then None
    else if p(s[0]) then Some(0)
    else match FirstIndex(s[1..], p)
      case None => None
      case Some(k) => Some(k + 1)
  }

  /** Filtering distributes over concatenation, so relative order is kept. */
  lemma {:induction false} FilterConcat<T(!new)>(a: seq<T>, b: seq<T>, p: T -> bool)
    ensures Filter(a + b, p) == Filter(a, p) + Filter(b, p)
    decreases |a|
  {
    if |a| == 0 {
      assert a + b == b;
    } else {
      assert (a + b)[1..] == a[1..] + b;
      FilterConcat(a[1..], b, p);
    }
  }

  /** Filtering one element in front of a sequence. */
  lemma FilterCons<T(!new)>(x: T, s: seq<T>, p: T -> bool)
    ensures Filter([x] + s, p) == if p(x) then [x] + Filter(s, p) else Filter(s, p)
  {
    assert ([x] + s)[0] == x;
    assert ([x] + s)[1..] == s;
  }

  /** The head of a filtered sequence is the first satisfying element. */
  lemma {:induction false} FilterHead<T(!new)>(s: seq<T>, p: T -> bool)
    ensures |Filter(s, p)| > 0 <==> FirstIndex(s, p).Some?
    ensures |Filter(s, p)| > 0 ==> Filter(s, p)[0] == s[FirstIndex(s, p).value]
    decreases |s|
  {
    if |s| > 0 && !p(s[0]) {
      FilterHead(s[1..], p);
    }
  }

  /** The elements of `s` are told apart by `f`. */
  predicate DistinctBy<T, U(==)>(s: seq<T>, f: T -> U) {
    forall i, j :: 0 <= i < j < |s| ==> f(s[i]) != f(s[j])
  }

  /** Filtering keeps elements told apart. */
  lemma {:induction false} FilterDistinct<T(!new), U>(s: seq<T>, p: T -> bool, f: T -> U)
    requires DistinctBy(s, f)
    ensures DistinctBy(Filter(s, p), f)
    decreases |s|
  {
    if |s| > 0 {
      var tail := s[1..];
      assert DistinctBy(tail, f) by {
        forall i, j | 0 <= i < j < |tail|
          ensures f(tail[i]) != f(tail[j])
        {
          assert tail[i] == s[i + 1] && tail[j] == s[j + 1];
        }
      }
      FilterDistinct(tail, p, f);
      var rest := Filter(tail, p);
      if p(s[0]) {
        var r := [s[0]] + rest;
        forall i, j | 0 <= i < j < |r|
          ensures f(r[i]) != f(r[j])
        {
          if i == 0 {
            assert r[j] == rest[j - 1];
            assert rest[j - 1] in tail;
            var m :| 0 <= m < |tail| && tail[m] == rest[j - 1];
            assert s[m + 1] == r[j];
          } else {
            assert r[i] == rest[i - 1] && r[j] == rest[j - 1];
          }
        }
      }
    }
  }

  /** Keeping the `q`-elements of the `p`-elements is keeping the
      `q`-elements, when every `q`-element is a `p`-element. */
  lemma {:induction false} FilterNarrow<T(!new)>(s: seq<T>, p: T -> bool, q: T -> bool)
    requires forall x :: q(x) ==> p(x)
    ensures Filter(Filter(s, p), q) == Filter(s, q)
    decreases |s|
  {
    if |s| > 0 {
      var rest := Filter(s[1..], p);
      FilterNarrow(s[1..], p, q);
      if p(s[0]) {
        assert Filter(s, p) == [s[0]] + rest;
        FilterCons(s[0], rest, q);
      } else {
        assert Filter(s, p) == rest;
        assert Filter(s, q) == Filter(s[1..], q);
      }
    }
  }

  /** Filtering with two predicates that agree gives the same elements. */
  lemma {:induction false} FilterSame<T(!new)>(s: seq<T>, p: T -> bool, q: T -> bool)
    requires forall x :: p(x) == q(x)
    ensures Filter(s, p) == Filter(s, q)
    decreases |s|
  {
    if |s| > 0 {
      FilterSame(s[1..], p, q);
    }
  }

  /** Regrouping one element between two sequences; stated on its own so
      that proofs about growing tables need not rediscover it. */
  lemma AppendAssoc<T>(a: seq<T>, x: T, b: seq<T>)
    ensures a + [x] + b == a + ([x] + b)
  {
  }

  /** The two halves of a concatenation, by slice and by index. */
  lemma ConcatShape<T>(a: seq<T>, b: seq<T>, c: seq<T>)
    requires c == a + b
    ensures c[..|a|] == a && c[|a|..] == b
    ensures forall k :: 0 <= k < |a| ==> c[k] == a[k]
    ensures forall k :: 0 <= k < |b| ==> c[|a| + k] == b[k]
  {
  }

  /** Cutting off a front part that `p` rejects filters to the same. */
  lemma FilterDropFront<T(!new)>(s: seq<T>, i: nat, p: T -> bool)
    requires i <= |s|
    requires forall k :: 0 <= k < i ==> !p(s[k])
    ensures Filter(s[i..], p) == Filter(s, p)
  {
    var a, b := s[..i], s[i..];
    assert s == a + b;
    FilterConcat(a, b, p);
    FilterNone(a, p);
  }

  /** Cutting off a back part that `p` rejects filters to the same. */
  lemma FilterDropBack<T(!new)>(s: seq<T>, j: nat, p: T -> bool)
    requires j <= |s|
    requires forall k :: j <= k < |s| ==> !p(s[k])
    ensures Filter(s[..j], p) == Filter(s, p)
  {
    var a, b := s[..j], s[j..];
    assert s == a + b;
    FilterConcat(a, b, p);
    FilterNone(b, p);
  }
}

=== FILE: tags.dfy ===
/** The `ActsAsTaggableOn::Tag` record (tag.rb:1-99): its two validations,
    `create`, value equality, `to_s`, the normalising `name=` setter and
    `safe_name`. The tags table is an immutable sequence of rows. */
module Tags {
  import opened Optional
  import opened Text
  import opened Seqs
  import opened Normaliser

  /** A tag record. `id` is `None` until the record is saved; `name` is
      `None` when it is nil. */
  datatype Tag = Tag(id: Option<nat>, name: Option<string>) {
    predicate Saved() {
      id.Some?
    }
  }

  /** The tags table, rows in storage order. */
  datatype Store = Store(rows: seq<Tag>)

  /** Result of an operation that yields one tag. */
  datatype Step = Step(store: Store, tag: Tag)

  /** `validates_presence_of :name` (tag.rb:14). */
  predicate Present(name: Option<string>) {
    name.Some? && !Blank(name.value)
  }

  /** Some stored row carries `name`: what `validates_uniqueness_of :name`
      (tag.rb:15) rejects. */
  predicate Taken(store: Store, name: Option<string>) {
    exists k :: 0 <= k < |store.rows| && store.rows[k].name == name
  }

  /** The table as the validations keep it: the k-th row is saved with id
      k + 1, every name is present, and no two rows share a name. */
  ghost predicate Valid(store: Store) {
    && (forall k :: 0 <= k < |store.rows| ==>
          store.rows[k].id == Some(k + 1) && Present(store.rows[k].name))
    && (forall i, j :: 0 <= i < j < |store.rows| ==> store.rows[i].name != store.rows[j].name)
  }

  /** `name=` (tag.rb:81-83): every assignment goes through `normalise`
      (passed in as `norm`) and only the name changes. */
  function SetName(t: Tag, raw: Option<string>, norm: NormaliseFn): (r: Tag)
    ensures r.id == t.id
    ensures r.name == norm(raw)
  {
    t.(name := norm(raw))
  }

  /** `to_s` (tag.rb:77-79). */
  function ToS(t: Tag): Option<string> {
    t.name
  }

  /** `Tag.create(:name => raw)`: a new record whose name goes through
      `name=`, saved with the next id when both validations pass and
      returned unsaved otherwise (`create` does not raise). */
  function Create(store: Store, raw: Option<string>, norm: NormaliseFn): (r: Step)
    ensures r.tag.name == norm(raw)
    ensures r.tag.Saved() <==> Present(norm(raw)) && !Taken(store, norm(raw))
    ensures r.tag.Saved() ==> r.tag.id == Some(|store.rows| + 1) && r.store.rows == store.rows + [r.tag]
    ensures !r.tag.Saved() ==> r.store == store
  {
    var record := SetName(Tag(None, None), raw, norm);
    if Present(record.name) && !Taken(store, record.name) then
      var saved := record.(id := Some(|store.rows| + 1));
      Step(Store(store.rows + [saved]), saved)
    else
      Step(store, record)
  }

  /** A row appended to the table takes its name. */
  lemma TakenAfterAppend(store: Store, t: Tag, name: Option<string>)
    ensures Taken(Store(store.rows + [t]), name) <==> Taken(store, name) || t.name == name
  {
    var rows := store.rows + [t];
    if Taken(Store(rows), name) {
      var k :| 0 <= k < |rows| && rows[k].name == name;
      if k < |store.rows| {
        assert rows[k] == store.rows[k];
      }
    }
    if Taken(store, name) {
      var k :| 0 <= k < |store.rows| && store.rows[k].name == name;
      assert rows[k] == store.rows[k];
    }
    assert rows[|store.rows|] == t;
  }

  /** `create` keeps the table valid: the validations are what keep names
      present and unique. */
  lemma CreateKeepsValid(store: Store, raw: Option<string>, norm: NormaliseFn)
    requires Valid(store)
    ensures Valid(Create(store, raw, norm).store)
  {
    var r := Create(store, raw, norm);
    if r.tag.Saved() {
      AppendKeepsValid(store, r.tag);
    }
  }

  /** Appending a saved row with the next id and a present, untaken name
      keeps the table valid. */
  lemma AppendKeepsValid(store: Store, t: Tag)
    requires Valid(store)
    requires t.id == Some(|store.rows| + 1) && Present(t.name) && !Taken(store, t.name)
    ensures Valid(Store(store.rows + [t]))
  {
    var rows := store.rows + [t];
    forall i, j | 0 <= i < j < |rows|
      ensures rows[i].name != rows[j].name
    {
      if j == |store.rows| {
        assert rows[i] == store.rows[i];
      }
    }
  }

  /** `==` (tag.rb:73-75): ActiveRecord's identity test (the other record is
      saved under the same id) or, failing that, equal names. */
  function Equal(a: Tag, b: Tag): (r: bool)
    ensures a.name == b.name ==> r
    ensures b.Saved() && a.id == b.id ==> r
    ensures r && a.name != b.name ==> a.Saved() && b.Saved() && a.id == b.id
  {
    (b.Saved() && a.id == b.id) || a.name == b.name
  }

  /** In a valid table two rows are `==` exactly when they are the same row. */
  lemma EqualRowsIdentical(store: Store, i: nat, j: nat)
    requires Valid(store)
    requires i < |store.rows| && j < |store.rows|
    ensures Equal(store.rows[i], store.rows[j]) <==> i == j
  {
    if i < j {
      assert store.rows[i].name != store.rows[j].name;
    } else if j < i {
      assert store.rows[j].name != store.rows[i].name;
    }
  }

  /** `to_s` after `name=` is the normalised input, nil only for nil, and
      assigning it back through `name=` changes nothing: a stored name is
      stable. */
  lemma AssignedNameStable(t: Tag, raw: Option<string>, tr: Transliteration)
    requires AsciiFixed(tr)
    ensures ToS(SetName(t, raw, NormaliseWith(tr))) == Normalise(raw, tr)
    ensures ToS(SetName(t, raw, NormaliseWith(tr))).None? <==> raw.None?
    ensures var once := SetName(t, raw, NormaliseWith(tr));
      SetName(once, ToS(once), NormaliseWith(tr)) == once
  {
    NormaliseIdempotent(raw, tr);
  }

  /** `safe_name` (tag.rb:89-91): the name with every character outside
      `[a-zA-Z0-9]` deleted; a nil name has no `gsub`, so there is no result. */
  function SafeName(t: Tag): (r: Option<string>)
    ensures r.Some? <==> t.name.Some?
    ensures r.Some? ==> forall k :: 0 <= k < |r.value| ==> IsAlnum(r.value[k])
    ensures r.Some? ==> forall c :: c in t.name.value && IsAlnum(c) ==> c in r.value
    ensures r.Some? ==> (r.value == t.name.value <==> forall k :: 0 <= k < |t.name.value| ==> IsAlnum(t.name.value[k]))
  {
    match t.name
    case None => None
    case Some(n) =>
      FilterIdentity(n, IsAlnum);
      Some(Filter(n, IsAlnum))
  }
}

=== FILE: text.dfy ===
/** The string operations the tag normaliser is built from, each with the
    meaning Ruby 1.9 gives it: `downcase` (ASCII letters only), `strip`,
    space squeezing
    (`gsub(/ +/, " ")`), and ActiveSupport's `blank?`. */
module Text {
  import opened Seqs

  /** Characters `String#strip` removes from either end: NUL, tab, line
      feed, vertical tab, form feed, carriage return and space. */
  predicate IsStripSpace(c: char) {
    c == '\0' || c == '\t' || c == '\n' || c == '\U{000B}' || c == '\U{000C}'
    || c == '\r' || c == ' '
  }

  /** Characters `blank?` treats as empty (`[[:space:]]`, ASCII part). */
  predicate IsBlankChar(c: char) {
    c == '\t' || c == '\n' || c == '\U{000B}' || c == '\U{000C}' || c == '\r' || c == ' '
  }

  /** `blank?` on a string: empty or whitespace only. */
  predicate Blank(s: string) {
    forall k :: 0 <= k < |s| ==> IsBlankChar(s[k])
  }

  predicate IsAscii(c: char) {
    c < '\U{0080}'
  }

  predicate IsUpper(c: char) {
    'A' <= c <= 'Z'
  }

  predicate IsLower(c: char) {
    'a' <= c <= 'z'
  }

  predicate IsDigit(c: char) {
    '0' <= c <= '9'
  }

  predicate IsAlnum(c: char) {
    IsUpper(c) || IsLower(c) || IsDigit(c)
  }

  /** No ASCII capital letter occurs in `s`. */
  predicate NoUpper(s: string) {
    forall k :: 0 <= k < |s| ==> !IsUpper(s[k])
  }

  /** One character under `downcase`: a capital becomes the small letter
      at the same place in the alphabet. */
  function DowncaseChar(c: char): (d: char)
    ensures !IsUpper(d)
    ensures IsAscii(c) <==> IsAscii(d)
    ensures IsUpper(c) ==> IsLower(d) && d as int - 'a' as int == c as int - 'A' as int
    ensures !IsUpper(c) ==> d == c
  {
    if IsUpper(c) then (c as int + 32) as char else c
  }

  /** Ruby 1.9 `String#downcase`: ASCII capitals become small letters,
      every other character is left alone. */
  function Downcase(s: string): (r: string)
    ensures |r| == |s|
    ensures forall k :: 0 <= k < |s| ==> r[k] == DowncaseChar(s[k])
    ensures NoUpper(r)
  {
    seq(|s|, k requires 0 <= k < |s| => DowncaseChar(s[k]))
  }

  lemma DowncaseOfLower(s: string)
    requires NoUpper(s)
    ensures Downcase(s) == s
  {
  }

  lemma DowncaseCons(s: string)
    requires |s| > 0
    ensures Downcase(s) == [DowncaseChar(s[0])] + Downcase(s[1..])
  {
  }

  /** Drop leading strip-space. */
  function LStrip(s: string): (r: string)
    ensures |r| <= |s| && r == s[|s| - |r|..]
    ensures |r| > 0 ==> !IsStripSpace(r[0])
    ensures forall k :: 0 <= k < |s| - |r| ==> IsStripSpace(s[k])
    ensures forall c :: c in r ==> c in s
    ensures forall c :: c in s && !IsStripSpace(c) ==> c in r
    ensures NoDoubleSpace(s) ==> NoDoubleSpace(r)
    ensures (|s| == 0 || !IsStripSpace(s[0])) ==> r == s
    decreases |s|
  {
    if |s| > 0 && IsStripSpace(s[0]) then LStrip(s[1..]) else s
  }

  /** Drop trailing strip-space. */
  function RStrip(s: string): (r: string)
    ensures |r| <= |s| && r == s[..|r|]
    ensures |r| > 0 ==> !IsStripSpace(r[|r| - 1])
    ensures forall k :: |r| <= k < |s| ==> IsStripSpace(s[k])
    ensures forall c :: c in r ==> c in s
    ensures forall c :: c in s && !IsStripSpace(c) ==> c in r
    ensures NoDoubleSpace(s) ==> NoDoubleSpace(r)
    ensures (|s| == 0 || !IsStripSpace(s[|s| - 1])) ==> r == s
    decreases |s|
  {
    if |s| > 0 && IsStripSpace(s[|s| - 1]) then RStrip(s[..|s| - 1]) else s
  }

  /** No two adjacent spaces. */
  ghost predicate NoDoubleSpace(s: string) {
    forall i, j :: 0 <= i < j < |s| && j == i + 1 ==> !(s[i] == ' ' && s[j] == ' ')
  }

  /** `String#strip`: the longest inner slice that neither starts nor ends
      with strip-space. */
  function Strip(s: string): (r: string)
    ensures |r| <= |s|
    ensures |r| > 0 ==> !IsStripSpace(r[0]) && !IsStripSpace(r[|r| - 1])
    ensures forall c :: c in r ==> c in s
    ensures forall c :: c in s && !IsStripSpace(c) ==> c in r
    ensures NoDoubleSpace(s) ==> NoDoubleSpace(r)
    ensures (|s| == 0 || (!IsStripSpace(s[0]) && !IsStripSpace(s[|s| - 1]))) ==> r == s
  {
    var l := LStrip(s);
    var r := RStrip(l);
    assert |r| > 0 ==> r[0] == l[0];
    r
  }

  /** `strip` removes strip-space at the ends and nothing else: the result
      is a slice of the input with only strip-space on either side. */
  lemma StripSlice(s: string)
    ensures exists i :: StripsTo(s, i, Strip(s))
  {
    var l := LStrip(s);
    var r := RStrip(l);
    var i := |s| - |l|;
    TrimmedSlice(s, i, l, r);
    assert Strip(s) == r;
  }

  /** Dropping strip-space from the front of `s` and then from the back of
      what is left cuts out a slice with only strip-space around it. */
  lemma TrimmedSlice(s: string, i: nat, l: string, r: string)
    requires i <= |s| && l == s[i..]
    requires forall k :: 0 <= k < i ==> IsStripSpace(s[k])
    requires |r| <= |l| && r == l[..|r|]
    requires forall k :: |r| <= k < |l| ==> IsStripSpace(l[k])
    ensures StripsTo(s, i, r)
  {
    assert r == s[i..i + |r|];
    forall k | i + |r| <= k < |s|
      ensures IsStripSpace(s[k])
    {
      assert s[k] == l[k - i];
    }
  }

  /** `r` sits in `s` at `i`, with only strip-space before and after it. */
  ghost predicate StripsTo(s: string, i: nat, r: string) {
    && i + |r| <= |s|
    && r == s[i..i + |r|]
    && (forall k :: 0 <= k < i ==> IsStripSpace(s[k]))
    && (forall k :: i + |r| <= k < |s| ==> IsStripSpace(s[k]))
  }

  /** A filter that keeps no strip-space sees the same characters before
      and after `strip`. */
  lemma StripKeeps(s: string, p: char -> bool)
    requires forall c :: IsStripSpace(c) ==> !p(c)
    ensures Filter(Strip(s), p) == Filter(s, p)
  {
    var l := LStrip(s);
    LStripKeeps(s, p);
    RStripKeeps(l, p);
    assert Strip(s) == RStrip(l);
  }

  lemma LStripKeeps(s: string, p: char -> bool)
    requires forall c :: IsStripSpace(c) ==> !p(c)
    ensures Filter(LStrip(s), p) == Filter(s, p)
  {
    var l := LStrip(s);
    FilterDropFront(s, |s| - |l|, p);
  }

  lemma RStripKeeps(s: string, p: char -> bool)
    requires forall c :: IsStripSpace(c) ==> !p(c)
    ensures Filter(RStrip(s), p) == Filter(s, p)
  {
    var r := RStrip(s);
    FilterDropBack(s, |r|, p);
  }

  lemma StripIdempotent(s: string)
    ensures Strip(Strip(s)) == Strip(s)
  {
  }

  /** `gsub(/ +/, " ")`: every run of spaces becomes a single space. */
  function Squeeze(s: string): (r: string)
    ensures |r| <= |s|
    ensures |s| > 0 ==> |r| > 0 && r[0] == s[0]
    ensures NoDoubleSpace(r)
    ensures forall c :: c in r <==> c in s
    ensures NoDoubleSpace(s) ==> r == s
    decreases |s|
  {
    if |s| <= 1 then s
    else if s[0] == ' ' && s[1] == ' ' then Squeeze(s[1..])
    else [s[0]] + Squeeze(s[1..])
  }

  /** A filter that keeps no space sees the same characters before and
      after squeezing: only spaces are removed. */
  lemma {:induction false} SqueezeKeeps(s: string, p: char -> bool)
    requires !p(' ')
    ensures Filter(Squeeze(s), p) == Filter(s, p)
    decreases |s|
  {
    if |s| > 1 {
      SqueezeKeeps(s[1..], p);
      if s[0] == ' ' && s[1] == ' ' {
        assert Filter(s, p) == Filter(s[1..], p);
      } else {
        FilterCons(s[0], Squeeze(s[1..]), p);
        assert Filter(s, p) == (if p(s[0]) then [s[0]] else []) + Filter(s[1..], p);
      }
    }
  }

  /** A run of `n` spaces. */
  function Spaces(n: nat): string {
    seq(n, k => ' ')
  }

  /** Squeezing passes a word with no space in it through unchanged and
      carries on with what follows. */
  lemma {:induction false} SqueezePrefix(w: string, t: string)
    requires forall k :: 0 <= k < |w| ==> w[k] != ' '
    ensures Squeeze(w + t) == w + Squeeze(t)
    decreases |w|
  {
    if |w| == 0 {
      assert w + t == t;
    } else {
      var s := w + t;
      SqueezeCons(s);
      assert s[0] == w[0] && s[1..] == w[1..] + t;
      SqueezePrefix(w[1..], t);
      ConsStep(w, Squeeze(s), Squeeze(s[1..]), Squeeze(t));
    }
  }

  lemma ConsStep(w: string, whole: string, tail: string, r: string)
    requires |w| > 0
    requires whole == [w[0]] + tail
    requires tail == w[1..] + r
    ensures whole == w + r
  {
    assert w == [w[0]] + w[1..];
  }

  /** A first character that is not a space is kept as it is. */
  lemma SqueezeCons(s: string)
    requires |s| > 0 && s[0] != ' '
    ensures Squeeze(s) == [s[0]] + Squeeze(s[1..])
  {
    if |s| == 1 {
      assert s[1..] == [];
    }
  }

  /** A run of one or more spaces before a non-space (or the end) squeezes
      to exactly one space. */
  lemma {:induction false} SqueezeRun(n: nat, t: string)
    requires n >= 1
    requires |t| == 0 || t[0] != ' '
    ensures Squeeze(Spaces(n) + t) == " " + Squeeze(t)
    decreases n
  {
    var s := Spaces(n) + t;
    if n == 1 {
      assert s == [' '] + t;
      assert s[1..] == t;
    } else {
      assert s[1..] == Spaces(n - 1) + t;
      SqueezeRun(n - 1, t);
    }
  }

  /** Two words with no space in them, separated by a run of spaces,
      squeeze to the words separated by one space. */
  lemma SqueezeBetween(w1: string, n: nat, w2: string)
    requires forall k :: 0 <= k < |w1| ==> w1[k] != ' '
    requires forall k :: 0 <= k < |w2| ==> w2[k] != ' '
    requires n >= 1
    ensures Squeeze(w1 + Spaces(n) + w2) == w1 + " " + w2
  {
    var rest := Spaces(n) + w2;
    assert w1 + Spaces(n) + w2 == w1 + rest;
    SqueezePrefix(w1, rest);
    SqueezeRun(n, w2);
    SqueezeSpaceless(w2);
    JoinStep(w1, w2, Squeeze(w1 + rest), Squeeze(rest), Squeeze(w2));
  }

  lemma JoinStep(w1: string, w2: string, whole: string, rest: string, last: string)
    requires whole == w1 + rest
    requires rest == " " + last
    requires last == w2
    ensures whole == w1 + " " + w2
  {
  }

  lemma SqueezeSpaceless(w: string)
    requires forall k :: 0 <= k < |w| ==> w[k] != ' '
    ensures Squeeze(w) == w
  {
    assert NoDoubleSpace(w);
  }
}
